=== FILE: README.md ===
# Pet store and pet order services, modelled in Dafny

The system is a small set of HTTP services. Two inventory stores each hold pet types and
pets. An order service sells pets out of them and keeps a ledger of purchases.

This project models the decision logic of both services as Dafny functions, methods and
classes, and proves what they promise.

**The order service** (`pet_order_service.py`)
- `availability.dfy` resolves a requested pet type to a candidate pet under three
  policies:
  - a store and a pet name are given: exact name match in that store;
  - only a store is given: a random pet of that store;
  - neither is given: a random pet from store 1's pets followed by store 2's.
- `availability.dfy` also models the store calls the order service makes: list the
  types, list the pets of a type, delete a pet.
- `purchases.dfy` covers the purchase handler:
  - validation of the request, in the order of the code's checks;
  - resolution, then removal from the winning store, and only then one new ledger record;
  - the ledger query behind the shared-secret header, with its equality filters.

**The inventory store** (`app.py`)
- `animal_info.dfy`: the lifespan and attribute parsers.
- `birthdates.dfy`: the `%d-%m-%Y` date reader and the birthdate range filter of the pet
  listing.
- `pictures.dfy`: the picture file naming of POST and PUT.
- `pet_store.dfy`: a `Store` class whose map fields stand for the two collections. Its
  methods create and delete types and pets. They keep each type's `pets` name list in step
  with that type's pet records (`Consistent`).

**Shared** (`common.dfy`): option values, sequence filtering, Python's `strip`, ASCII case
folding, and the JSON shapes a request field can have.

**Inputs taken as parameters.** Network answers, `random.choice` and `uuid4` are parameters:
- `up` is the set of stores that answer during resolution;
- `removalUp` says whether the DELETE reaches the winning store;
- `draw` is the index `random.choice` picks;
- `freshId` is the new purchase id, with the precondition that the ledger does not hold it;
- `downloaded` is the outcome of an image download;
- `AnimalReply` is the animal-facts service's answer.

**Validation follows the code:**
- The purchaser and the pet type are only checked to be text. Empty text after trimming is
  accepted.
- A pet name requires a store only when it is non-empty.
- The validation order is:
  1. purchaser;
  2. pet type;
  3. store type;
  4. pet-name type;
  5. store range;
  6. pet name without a store.

## Model

| member | source | states |
|---|---|---|
| Text.Strip | pet_order_service.py:128-129 | The result has no whitespace at either end, and everything around it in the input is whitespace. |
| Text.StripIdempotent | pet_order_service.py:128-129 | Stripping a stripped text changes nothing. |
| Availability.ListPetTypes | pet_order_service.py:28-36 | The listing is there exactly when the store answers, and it is that store's types. |
| Availability.GetPetTypeId | pet_order_service.py:25-36 | None exactly when the listing failed or no listed type's name equals the request ignoring case. Otherwise the result is the id of the first such type. |
| Availability.PetsUnder | pet_order_service.py:38-46 | None exactly when no type has the id. Otherwise the result is the pets of a type with that id. |
| Availability.GetPetsOfType | pet_order_service.py:38-46 | A store that does not answer or does not know the type gives []. Otherwise the result is the pets of the type with that id. |
| Availability.RemovePet | app.py:443-485 | The store's DELETE succeeds exactly when the type exists and lists a pet of that name. This is the order service's listing-level view of the handler that PetStore.Store.DeletePet models on the store's own collections. |
| Availability.DeletePetFromStore | pet_order_service.py:48-54 | A removal succeeds exactly when the store is reachable and has the pet. It changes only the target store. |
| Availability.ResolveTypeId | pet_order_service.py:66-68 | A resolved id is non-empty and is the id of the first type named as requested in an answering store. Such a type with a non-empty id is always found. |
| Availability.StoreCandidates | pet_order_service.py:96-106 | A store's candidates are exactly its pets of the resolved type, each tagged with the store and the type id. There are none when the type does not resolve. |
| Availability.FindNamed | pet_order_service.py:60-74 | Policy 1 returns a candidate of that store whose name equals the requested name exactly. It returns None exactly when no candidate has that name. |
| Availability.Pool | pet_order_service.py:94-110 | Every pooled candidate belongs to store 1 or 2 and is one of that store's candidates. With a store selected, the pool is exactly that store's candidates. Without one, it is store 1's candidates followed by store 2's, in listing order. |
| Availability.Resolve | pet_order_service.py:56-110 | Per policy: policy 1 yields an exact name match in the store; policy 2 a pet of the store's list, None iff that list is empty; policy 3 a member of store 1's then store 2's candidates, None iff both are empty. In policies 2 and 3 a non-empty pool yields the candidate at the drawn index. A selector other than 1 or 2 yields None. |
| Availability.EveryPooledCandidateIsDrawable | pet_order_service.py:86-110 | When policy 2 or 3 draws, every pooled candidate, from either store, is what some fitting draw yields. |
| Availability.DrawsMatchPositions | pet_order_service.py:86-110 | Each draw below the pool size fits and yields the candidate at that position, so every pooled entry is drawn by exactly one index and no store is weighted. |
| Availability.AppendStorePets | pet_order_service.py:96-106 | The appending loop adds exactly the store's tagged candidates to the pool. |
| Availability.FindAvailablePet | pet_order_service.py:56-110 | The imperative resolver, including policy 3's loop over both stores, returns what Resolve specifies. |
| Availability.ResolvedPetIsRemovable | pet_order_service.py:147-153 | A pet the resolver found in a store can be removed by the following DELETE. |
| Availability.RemovePetKeepsTypes | pet_order_service.py:151-153 | A removal keeps every type's id and name, and leaves every other type unchanged. |
| Availability.RemovedPetIsGone | pet_order_service.py:151-153 | After a removal the inventory is still well formed. The type has one pet fewer and no pet of the removed name. All other types are unchanged. |
| Availability.NamedPetCannotBeFoundAgain | pet_order_service.py:60-74 | Once a pet found by name is removed, the same request finds nothing, so a pet cannot be sold twice. |
| Purchases.Validate | pet_order_service.py:122-144 | Each check of the handler rejects on its own condition, and a request passing all of them is accepted. An accepted order carries the trimmed purchaser and pet type, an optional store in {1, 2}, and a non-empty pet name only together with a store. |
| Purchases.ReadInt | pet_order_service.py:195-199 | Trimmed text reads as a number exactly when it is one or more digits after at most one sign. The value is the digits' value, negated after '-'. |
| Purchases.ParseInt | pet_order_service.py:195-199 | `int()` accepts exactly the texts that are such a number once surrounding whitespace is stripped, and reads them as ReadInt does. |
| Purchases.ParseIntOfDecimal | pet_order_service.py:195-199 | `int(str(n)) == n`: a store number sent as text is compared as that number. |
| Purchases.ParseIntOfNegative | pet_order_service.py:195-199 | `int("-" + str(n)) == -n`. |
| Purchases.FilterValue | pet_order_service.py:195-201 | A store filter is compared as an integer exactly when its text parses, with the parsed value. Every other filter, and an unparsable store, is compared as the text itself. |
| Purchases.Selected | pet_order_service.py:204 | The query returns an order-preserving subsequence of the ledger: exactly the records that match every recognised filter. |
| Purchases.BuildQuery | pet_order_service.py:191-201 | The query holds exactly the recognised keys among the parameters. Each one maps to its value, with the store read as an integer when it parses. |
| Purchases.MatchesPurchaseId | pet_order_service.py:194-204 | A purchase-id filter alone matches exactly the records with that id. |
| Purchases.PurchaseIdFindsAtMostOne | pet_order_service.py:156-167 | With distinct purchase ids, a purchase-id query returns at most one record. |
| Purchases.CandidateIsRemovable | pet_order_service.py:147-153 | The resolver's candidate for a validated order is in store 1 or 2 and can be removed from it. |
| Purchases.OrderService.constructor | pet_order_service.py:11-19 | A service starts with the given stores and an empty ledger. |
| Purchases.OrderService.PostPurchase | pet_order_service.py:112-181 | An invalid request, or no available pet, changes nothing. A failed removal is a server fault and leaves the ledger unchanged. After a removal the chosen pet is gone from its store. If the ledger then fails, the answer is a server fault and nothing is recorded. Otherwise the ledger grows by exactly the new record, and the reply carries the chosen pet's name. |
| Purchases.OrderService.Settle | pet_order_service.py:150-181 | The DELETE fails only when the store is unreachable, and then nothing changes. After a removal the pet is gone from its type. A ledger failure answers a server fault and records nothing. Otherwise the ledger grows by exactly the new record. The store invariant is kept throughout. |
| Purchases.OrderService.GetTransactions | pet_order_service.py:183-205 | A header other than the secret gives Unauthorized. Otherwise the reply is exactly the ledger records matching every recognised filter, in ledger order. |
| AnimalInfo.ParseLifespan | app.py:103-112 | None for missing or empty text and exactly when the text has no digit. Otherwise the value of the first maximal run of digits. |
| AnimalInfo.LifespanExample | app.py:103-112 | "10 - 12 years" gives 10. |
| AnimalInfo.WordsFrom | app.py:125 | From position p on, the tokens are runs of word characters that together hold exactly the word characters after p. Each token is a maximal run at or after p, and the tokens lie left to right. |
| AnimalInfo.Words | app.py:124-125 | Each token is a non-empty run of word characters. Each is a maximal run, which cannot be extended on either side, and the runs lie left to right. Together the tokens are exactly the text's word characters, in order. |
| AnimalInfo.ParseAttributes | app.py:114-126 | The result is Words of the temperament when the temperament is non-empty, else Words of the group behaviour. It is empty when both are missing or empty. |
| Birthdates.BeforeIsStrictTotalOrder | app.py:313-318 | Date comparison is irreflexive, transitive and total. |
| Birthdates.DayField | app.py:261-266 | A day field reads as a value n from 1 to 31. Its text is the two-digit form of n or, for n up to 9, the single digit with or without a leading space. |
| Birthdates.MonthField | app.py:261-266 | A month field reads as a value n from 1 to 12. Its text is the two-digit form of n or, for n up to 9, the single digit. |
| Birthdates.FieldForms | app.py:261-266 | Each of those forms reads back as its value: "05", "5" and " 5" are all day 5. |
| Birthdates.ParseDate | app.py:261-266 | Every date read is a real calendar date with a year from 1 to 9999, and the text spells it: a day field and a month field that read as its day and month, then its year in four digits, joined by dashes. |
| Birthdates.ParseDateOfFields | app.py:261-266 | Conversely, any day text and month text the fields accept for a valid date, joined by dashes to the four-digit year, reads back as that date. |
| Birthdates.NotAvailableIsNoDate | app.py:302-307 | The "NA" placeholder never reads as a date. |
| Birthdates.ParseFormat | app.py:261-266 | Reading a zero-padded dd-mm-yyyy rendering of a valid date gives that date back. |
| Birthdates.Kept | app.py:301-322 | A kept pet's birthdate reads as a date, so "NA" is never kept. With neither bound given, a pet is kept exactly when its birthdate reads as a date. |
| Birthdates.InRange | app.py:299-324 | The filtered list is an order-preserving subsequence of the pets, and every pet in it passes the bounds. |
| Birthdates.InRangeComplete | app.py:299-324 | Every pet that passes the bounds is in the filtered list. |
| Birthdates.InRangeWithinBounds | app.py:309-322 | A kept pet has a readable birthdate strictly after the lower and strictly before the upper readable bound. |
| Birthdates.EmptyWindow | app.py:309-322 | When the lower bound is not before the upper bound, nothing passes. |
| Birthdates.UnreadableBoundIgnored | app.py:311-314 | A lower bound that does not read as a date filters like no lower bound. |
| Birthdates.UnreadableUpperBoundIgnored | app.py:315-318 | An upper bound that does not read as a date filters like no upper bound. |
| Birthdates.FilterByBirthdate | app.py:291-324 | Without a bound the list comes back unchanged. Otherwise the loop returns exactly InRange. |
| Pictures.Extension | app.py:379 | There is an extension exactly when the last path component has a '.' after a character other than a dot. The extension is then the suffix from the last '.', holding no other '.' or '/'. |
| Pictures.ExtensionExamples | app.py:379 | "pics/.png" has no extension, and "pics/cat.v2.JPG" has ".JPG". |
| Pictures.PostExtension | app.py:379-385 | The saved extension is ".jpg" or ".png", and it is ".png" exactly when the lowered extension is ".png". |
| Pictures.PostExtensionIdempotent | app.py:379-385 | Normalising a normalised extension changes nothing. |
| Pictures.PostExtensionOfJpeg | app.py:379-385 | ".jpeg" and ".jpg", in any letter case, become ".jpg". |
| Pictures.PutExtension | app.py:539 | PUT keeps a non-empty extension as written and uses ".jpg" when there is none. |
| Pictures.PutAgreesWithPostOnCanonical | app.py:539 | PUT and POST agree on ".jpg", ".png" and a missing extension. |
| Pictures.PutKeepsUpperCase | app.py:539 | PUT keeps ".PNG", which POST saves as ".png". |
| Pictures.PictureFilename | app.py:386 | The file name is the pet name, '-', the type name with its blanks removed, then the extension. |
| Pictures.PostPicture | app.py:372-391 | Without a usable URL, or when the download fails, the picture is "NA". Otherwise it is the file name with the POST extension: it starts with the pet name and '-' and ends in ".jpg" or ".png". |
| Pictures.PutPicture | app.py:533-548 | Without a usable URL, or when the download fails, the current picture stays. Otherwise it is the file name under the new pet name with the PUT extension. |
| PetStore.Without | app.py:477-481 | Pulling keeps exactly the other names, in their order, each as often as before, and drops every copy of the pulled name. It never adds a duplicate and never lengthens the list. |
| PetStore.WithoutAppended | app.py:403-409 | Pulling a name that was just pushed restores the list. |
| PetStore.WithoutAbsent | app.py:477-481 | Pulling an absent name changes nothing. |
| PetStore.WithoutOneFewer | app.py:477-481 | Pulling a name that is listed once shortens the list by one. |
| PetStore.MatchingAnimal | app.py:94-97 | The animal found is the first of the answer whose name equals the type ignoring case. None exactly when no animal's name does. |
| PetStore.NewPetType | app.py:169-186 | The new type has the given name and no pets. Family and genus come from the animal, or are empty when it has none. Attributes and lifespan are the parses of the animal's fields. |
| PetStore.CreatedBirthdate | app.py:366-370 | The birthdate is `birthdate` when given, else `birthdate:`, else "NA". |
| PetStore.AddTypeReply | app.py:128-197 | Non-text type names and names already taken ignoring case are malformed. A failed lookup is an upstream error, and an answer without a matching animal is malformed. A type is created exactly when the lookup knows the animal. It is the type made from the first matching animal under the trimmed name, and no other type shares its name. |
| PetStore.AddTypeKeepsConsistent | app.py:128-197 | A new type with a fresh id, a free name and no pets keeps the store consistent. |
| PetStore.DeleteTypeKeepsConsistent | app.py:236-242 | Deleting a type that lists no pets keeps the store consistent. Its delete_many then removes nothing. |
| PetStore.CreateKeepsConsistent | app.py:354-409 | Adding a record under an unused name and pushing the name keeps the store consistent. |
| PetStore.DeleteKeepsConsistent | app.py:456-481 | Deleting a record and pulling its name keeps the store consistent. |
| PetStore.RenameKeepsConsistent | app.py:519-569 | Moving a record to an unused name, pulling the old name and pushing the new one, keeps the store consistent. |
| PetStore.ReplaceKeepsConsistent | app.py:550-558 | Updating a pet without renaming it keeps the store consistent. |
| PetStore.CreateThenDeleteRestores | app.py:403-481 | Creating a pet and then deleting it leaves the type's list as it was. |
| PetStore.RenameKeepsCount | app.py:560-569 | A rename keeps the length of the type's name list. |
| PetStore.Store.constructor | app.py:18-21 | A store starts empty and consistent. |
| PetStore.Store.AddPetType | app.py:128-197 | The reply is AddTypeReply's. A created type is stored under the fresh id, and nothing else changes. |
| PetStore.Store.DeletePetType | app.py:223-246 | An unknown id gives Not found. A type that lists pets is refused unchanged. Otherwise exactly that type goes and the records stay. |
| PetStore.Store.CreatePet | app.py:330-417 | Unknown type, non-text name or a taken trimmed name changes nothing. Otherwise the record is added with the defaulted birthdate and the POST picture, and the name is appended to the type's list. |
| PetStore.Store.DeletePet | app.py:443-485 | A missing pet gives Not found and changes nothing. Otherwise the record goes and its name is pulled from the list. Availability.RemovePet is the same handler as the order service sees it, on type listings alone. |
| PetStore.Store.UpdatePet | app.py:487-580 | A missing pet, a non-text name, or a new name that another pet holds changes nothing. Otherwise the record moves to the trimmed new name, and the list pulls the old name and pushes the new one. The birthdate defaults to the current one, and the picture follows the PUT rule. |
| PetStore.Store.SaveCreated | app.py:402-409 | The record is stored under its key and the name is pushed at the end of the type's list. Nothing else changes and the store invariant is kept. |
| PetStore.Store.SaveRenamed | app.py:550-569 | The record moves to the new name. A changed name is pulled from the type's list and pushed at its end, and an unchanged name leaves the types as they were. The store invariant is kept. |

## Left out

- HTTP plumbing is left out: media-type checks, JSON parsing failures, status codes and the response bodies beyond the modelled outcomes.
- MongoDB and ObjectId parsing are left out. The collections are maps and sequences, and an id that is not a valid ObjectId behaves like an unknown id (Not found).
- PetStore.Store.CreatePet, PetStore.Store.DeletePet, PetStore.Store.UpdatePet, PetStore.Store.AddPetType, PetStore.Store.DeletePetType: every database operation is taken to succeed. In the code each handler makes its writes one after another (`insert_one` then `$push`, app.py:403-409; `delete_one` then `$pull`, app.py:471-481; `update_one` then `$pull` and `$push`, app.py:551-569) inside one `except Exception` that answers 500. A failure between two writes leaves a record without its name-list entry, or the reverse, and the model has no such outcome. The `*KeepsConsistent` lemmas and the invariant `Consistent` hold only under this assumption.
- Purchases.OrderService.GetTransactions: the ledger query is taken to succeed. In the code a failing `find` answers 500 (pet_order_service.py:204-208), which the model does not produce.
- The `$regex` filters are read as case-insensitive equality. Regex metacharacters in user input are not modelled. This applies to the duplicate-type check, app.py:147-152, and to the GET /pet-types filters.
- GET /pet-types and its filters, GET of a single type or pet, `get_picture`, `/kill` and the home routes are outside the modelled core.
- HTTP calls are parameters: `up`, `removalUp`, `AnimalReply` and `downloaded`. The order service's inventory is the store's state as a value, so the two services are not connected at run time.
- `random.choice` and `uuid4` are the parameters `draw` and `freshId`.
- Saving and deleting image files, `os.makedirs` and MIME-type selection are left out. Only the resulting file name is modelled.
- `urlparse` is left out. The picture URL's path component is a parameter.
- Pictures.PostPicture, Pictures.PutPicture: a picture URL that is not text is taken as absent. The code does the same for a falsy one (0, false, an empty list or object). A truthy non-text URL raises on `strip()` in the code and becomes a 500, which the model does not produce.
- PetStore.Store.CreatePet: a JSON null `birthdate` counts as absent, as in the code (app.py:366-370). A `birthdate` that is neither text nor null, such as 5, cannot be given: the code stores it as it is, and the model's birthdate is text.
- PetStore.Store.UpdatePet: an explicit JSON null `birthdate` is taken as absent, while the code stores null (app.py:532). A `birthdate` that is not text, such as 5, cannot be given either: the code stores it as it is, and the model's birthdate is text.
- Purchases.ParseInt: Python's `int` also accepts underscores between digits and non-ASCII digits. These are not modelled.
- AnimalInfo.ParseLifespan, AnimalInfo.Words, Text.Lower: `\d`, `\w` and `lower()` are ASCII only. Python's are Unicode-aware.
- Birthdates.ParseDate: digits are ASCII, and strptime's case-insensitive matching does not arise for an all-numeric format.
- Purchases.Validate: Python's `True` and `False` count as integers 1 and 0 in the store checks. The model treats booleans as non-integers.
- Purchases.OrderService.GetTransactions: parameter names are taken to be distinct (`DistinctKeys`). `request.args.items()` yields each name once.
- Availability: a store's inventory is a sequence of types in listing order, not a map. The first-match rule of `get_pet_type_id` depends on that order.
- Availability.DeletePetFromStore: the pet is matched by its exact name. The code puts the raw name into the DELETE URL path, so a name holding '/', '?', '#' or a %-escape reaches another path. Availability.RemovePet and Purchases.CandidateIsRemovable rest on this exact-name reading.
- PetStore.Store: a type id is taken in one spelling. `ObjectId` accepts hex digits in either case, but pets are filed under the raw URL text, so two spellings of one id could file the same name twice. The model keys the store by the id as one value.
- Concurrency is not modelled. Requests run one at a time, so the race between finding a pet and deleting it does not arise.

=== FILE: animal_info.dfy ===
/**
 * How the inventory service turns the animal-facts record of a new pet type
 * into the type's lifespan and attribute words (parse_lifespan, parse_attributes).
 */
module AnimalInfo {
  import opened Wrappers
  import opened Seqs
  import opened Text

  // ---------------------------------------------------------------------------
  // parse_lifespan

  /** The end of the run of digits starting at `i`. */
  function DigitRunEnd(s: string, i: nat): (j: nat)
    requires i <= |s|
    ensures i <= j <= |s|
    ensures AllDigits(s[i..j])
    ensures j == |s| || !IsDigit(s[j])
    decreases |s| - i
  {
    if i < |s| && IsDigit(s[i]) then DigitRunEnd(s, i + 1) else i
  }

  /** s[i..j] is the first maximal run of decimal digits in `s`. */
  predicate FirstDigitRun(s: string, i: int, j: int) {
    && 0 <= i < j <= |s|
    && AllDigits(s[i..j])
    && (forall k :: 0 <= k < i ==> !IsDigit(s[k]))
    && (j == |s| || !IsDigit(s[j]))
  }

  /** parse_lifespan: the value of the first run of digits (re.findall(r'\d+')[0]); None for
      missing or empty text and for text without digits. */
  function ParseLifespan(text: Option<string>): (r: Option<nat>)
    ensures text.None? || text == Some("") ==> r.None?
    ensures text.Some? ==> (r.None? <==> forall k :: 0 <= k < |text.value| ==> !IsDigit(text.value[k]))
    ensures r.Some? ==> exists i, j :: FirstDigitRun(text.value, i, j) && r.value == DigitsValue(text.value[i..j])
  {
    if text.None? || text.value == "" then None
    else
      var s := text.value;
      var i := FirstIndex(s, IsDigit);
      if i == |s| then None
      else
        var j := DigitRunEnd(s, i);
        assert FirstDigitRun(s, i, j);
        Some(DigitsValue(s[i..j]))
  }

  /** A lifespan text such as "10 - 12 years" gives its lower bound. */
  lemma LifespanExample()
    ensures ParseLifespan(Some("10 - 12 years")) == Some(10)
  {
    var s := "10 - 12 years";
    assert IsDigit(s[0]) && IsDigit(s[1]) && !IsDigit(s[2]);
    assert FirstIndex(s, IsDigit) == 0;
    assert DigitRunEnd(s, 0) == 2;
    assert s[0..2] == "10";
    assert DigitsValue("1") == 1;
    assert DigitsValue("10") == 10;
  }

  // ---------------------------------------------------------------------------
  // parse_attributes

  /** The characters of a sequence of words, run together. */
  function Concat(words: seq<string>): string
  {
    if words == [] then [] else words[0] + Concat(words[1..])
  }

  lemma {:induction false} ConcatAppend(a: seq<string>, b: seq<string>)
    ensures Concat(a + b) == Concat(a) + Concat(b)
    decreases |a|
  {
    if a != [] {
      ConcatAppend(a[1..], b);
      var ab := a + b;
      assert ab[1..] == a[1..] + b && ab[0] == a[0];
      assert Concat(ab) == a[0] + Concat(a[1..] + b);
      assert Concat(a) == a[0] + Concat(a[1..]);
    } else {
      assert a + b == b;
    }
  }

  /** Each word is a non-empty run of \w characters. */
  predicate AreWords(words: seq<string>) {
    forall w :: w in words ==> w != [] && forall k :: 0 <= k < |w| ==> IsWordChar(w[k])
  }

  /** The end of the run of word characters starting at `i`. */
  function WordEnd(s: string, i: nat): (j: nat)
    requires i <= |s|
    ensures i <= j <= |s|
    ensures forall k :: i <= k < j ==> IsWordChar(s[k])
    ensures j == |s| || !IsWordChar(s[j])
    decreases |s| - i
  {
    if i < |s| && IsWordChar(s[i]) then WordEnd(s, i + 1) else i
  }

  /** `w` is s[a..b], a maximal run of word characters of `s`: it can be extended neither
      to the left nor to the right. */
  predicate RunAt(s: string, w: string, a: int, b: int) {
    && 0 <= a < b <= |s| && w == s[a..b]
    && (a == 0 || !IsWordChar(s[a - 1]))
    && (b == |s| || !IsWordChar(s[b]))
  }

  /** Token k of `words` is the maximal run s[starts[k]..ends[k]], and the runs lie left to
      right with a gap between any two of them. */
  predicate MaximalRuns(s: string, words: seq<string>, starts: seq<int>, ends: seq<int>) {
    && |starts| == |words| && |ends| == |words|
    && (forall k :: 0 <= k < |words| ==> RunAt(s, words[k], starts[k], ends[k]))
    && (forall k1, k2 :: 0 <= k1 < k2 < |words| ==> ends[k1] < starts[k2])
  }

  /** Runs that start at or after a non-word position j start strictly after it. */
  lemma RunsStartAfter(s: string, j: nat, rest: seq<string>, st: seq<int>, en: seq<int>)
    requires j <= |s| && (j == |s| || !IsWordChar(s[j]))
    requires AreWords(rest) && MaximalRuns(s, rest, st, en)
    requires forall k :: 0 <= k < |st| ==> j <= st[k]
    ensures forall k :: 0 <= k < |st| ==> j < st[k]
  {
    forall k | 0 <= k < |st|
      ensures j < st[k]
    {
      assert RunAt(s, rest[k], st[k], en[k]);
      assert rest[k] in rest && IsWordChar(rest[k][0]);
    }
  }

  /** Putting a run [i, j) before runs that all start after j keeps them left to right. */
  lemma SpansPrepend(i: int, j: int, st: seq<int>, en: seq<int>)
    requires |st| == |en|
    requires forall k1, k2 :: 0 <= k1 < k2 < |st| ==> en[k1] < st[k2]
    requires forall k :: 0 <= k < |st| ==> j < st[k]
    ensures forall k1, k2 :: 0 <= k1 < k2 < |st| + 1 ==> ([j] + en)[k1] < ([i] + st)[k2]
  {
    var st', en' := [i] + st, [j] + en;
    forall k1, k2 | 0 <= k1 < k2 < |st'|
      ensures en'[k1] < st'[k2]
    {
      assert st'[k2] == st[k2 - 1];
      if k1 > 0 {
        assert en'[k1] == en[k1 - 1];
      }
    }
  }

  /** The runs at [i, j) and after: a first maximal run s[i..j] followed by the maximal runs
      `rest` lying after j are the maximal runs from i on. */
  lemma RunsPrepend(s: string, i: nat, j: nat, rest: seq<string>, st: seq<int>, en: seq<int>)
    requires i < j <= |s|
    requires i == 0 || !IsWordChar(s[i - 1])
    requires j == |s| || !IsWordChar(s[j])
    requires AreWords(rest) && MaximalRuns(s, rest, st, en)
    requires forall k :: 0 <= k < |st| ==> j <= st[k]
    ensures MaximalRuns(s, [s[i..j]] + rest, [i] + st, [j] + en)
  {
    var r, st', en' := [s[i..j]] + rest, [i] + st, [j] + en;
    RunsStartAfter(s, j, rest, st, en);
    SpansPrepend(i, j, st, en);
    forall k | 0 <= k < |r|
      ensures RunAt(s, r[k], st'[k], en'[k])
    {
      if k > 0 {
        assert r[k] == rest[k - 1] && st'[k] == st[k - 1] && en'[k] == en[k - 1];
      }
    }
  }

  /** The runs of `s` from p on all start at or after p. */
  ghost predicate RunsFrom(s: string, words: seq<string>, p: int) {
    exists starts, ends :: MaximalRuns(s, words, starts, ends) && forall k :: 0 <= k < |starts| ==> p <= starts[k]
  }

  /** The word characters from p on are those of the first run s[i..j], then those after j. */
  lemma WordCharsFrom(s: string, p: nat, i: nat, j: nat, rest: seq<string>)
    requires p <= i < j <= |s|
    requires forall k :: p <= k < i ==> !IsWordChar(s[k])
    requires forall k :: i <= k < j ==> IsWordChar(s[k])
    requires Concat(rest) == Filter(s[j..], IsWordChar)
    ensures Concat([s[i..j]] + rest) == Filter(s[p..], IsWordChar)
  {
    var lead, run, tail := s[p..i], s[i..j], s[j..];
    assert forall k :: 0 <= k < |lead| ==> lead[k] == s[p + k];
    assert forall k :: 0 <= k < |run| ==> run[k] == s[i + k];
    assert s[p..] == lead + run + tail;
    FilterAroundRun(lead, run, tail, IsWordChar);
    assert ([run] + rest)[1..] == rest;
  }

  /** The first run from p, s[i..j], followed by the runs from j, are runs from p. */
  lemma RunsFromStep(s: string, p: nat, i: nat, j: nat, rest: seq<string>)
    requires p <= i < j <= |s|
    requires i == 0 || !IsWordChar(s[i - 1])
    requires j == |s| || !IsWordChar(s[j])
    requires AreWords(rest) && RunsFrom(s, rest, j)
    ensures RunsFrom(s, [s[i..j]] + rest, p)
  {
    var st, en :| MaximalRuns(s, rest, st, en) && forall k :: 0 <= k < |st| ==> j <= st[k];
    RunsPrepend(s, i, j, rest, st, en);
    var st' := [i] + st;
    assert forall k :: 0 <= k < |st'| ==> p <= st'[k];
  }

  /** The first position at or after p that holds a word character, or |s|. */
  function NextWordStart(s: string, p: nat): (i: nat)
    requires p <= |s|
    ensures p <= i <= |s|
    ensures forall k :: p <= k < i ==> !IsWordChar(s[k])
    ensures i < |s| ==> IsWordChar(s[i])
    decreases |s| - p
  {
    if p == |s| || IsWordChar(s[p]) then p else NextWordStart(s, p + 1)
  }

  /** No word character from p on: no runs from p on. */
  lemma NoWordsFrom(s: string, p: nat)
    requires p <= |s|
    requires forall k :: p <= k < |s| ==> !IsWordChar(s[k])
    ensures Filter(s[p..], IsWordChar) == []
    ensures RunsFrom(s, [], p)
  {
    var t := s[p..];
    assert forall k :: 0 <= k < |t| ==> t[k] == s[p + k];
    FilterNone(t, IsWordChar);
    assert MaximalRuns(s, [], [], []);
  }

  /** The first run from p, s[i..j], followed by the words from j, are the words from p. */
  lemma WordsFromStep(s: string, p: nat, i: nat, j: nat, rest: seq<string>)
    requires p <= i < j <= |s|
    requires p == 0 || !IsWordChar(s[p])
    requires forall k :: p <= k < i ==> !IsWordChar(s[k])
    requires forall k :: i <= k < j ==> IsWordChar(s[k])
    requires j == |s| || !IsWordChar(s[j])
    requires AreWords(rest) && Concat(rest) == Filter(s[j..], IsWordChar) && RunsFrom(s, rest, j)
    ensures AreWords([s[i..j]] + rest)
    ensures Concat([s[i..j]] + rest) == Filter(s[p..], IsWordChar)
    ensures RunsFrom(s, [s[i..j]] + rest, p)
  {
    if i > p {
      assert !IsWordChar(s[i - 1]);
    }
    var w := s[i..j];
    assert forall k :: 0 <= k < |w| ==> w[k] == s[i + k];
    WordCharsFrom(s, p, i, j, rest);
    RunsFromStep(s, p, i, j, rest);
  }

  /** re.findall(r'\w+', s[p..]), with the runs' positions counted in `s`. */
  function WordsFrom(s: string, p: nat): (r: seq<string>)
    requires p <= |s|
    requires p == 0 || p == |s| || !IsWordChar(s[p])
    ensures AreWords(r)
    ensures Concat(r) == Filter(s[p..], IsWordChar)
    ensures RunsFrom(s, r, p)
    decreases |s| - p
  {
    var i := NextWordStart(s, p);
    if i == |s| then
      NoWordsFrom(s, p);
      []
    else
      var j := WordEnd(s, i);
      var rest := WordsFrom(s, j);
      WordsFromStep(s, p, i, j, rest);
      [s[i..j]] + rest
  }

  /** re.findall(r'\w+', s): the maximal runs of word characters, in order. */
  function Words(s: string): (r: seq<string>)
    ensures AreWords(r)
    ensures Concat(r) == Filter(s, IsWordChar)
    ensures exists starts, ends :: MaximalRuns(s, r, starts, ends)
  {
    assert s[0..] == s;
    var r := WordsFrom(s, 0);
    assert RunsFrom(s, r, 0);
    r
  }

  /** parse_attributes: the words of the temperament when it is non-empty, else of the group
      behaviour; [] when both are missing or empty. */
  function ParseAttributes(temperament: Option<string>, groupBehavior: Option<string>): (r: seq<string>)
    ensures AreWords(r)
    ensures !Truthy(temperament) && !Truthy(groupBehavior) ==> r == []
    ensures Truthy(temperament) ==> Concat(r) == Filter(temperament.value, IsWordChar)
    ensures !Truthy(temperament) && Truthy(groupBehavior) ==> Concat(r) == Filter(groupBehavior.value, IsWordChar)
    ensures Truthy(temperament) ==> r == Words(temperament.value)
    ensures !Truthy(temperament) && Truthy(groupBehavior) ==> r == Words(groupBehavior.value)
  {
    var text := if Truthy(temperament) then temperament else groupBehavior;
    if !Truthy(text) then [] else Words(text.value)
  }
}

=== FILE: availability.dfy ===
/**
 * The availability resolver of the order service: how a requested pet type,
 * an optional store selector and an optional pet name become one candidate pet
 * held by one of the two configured stores.
 *
 * The order service sees a store only through its HTTP listings, so a store is
 * modelled as its inventory value: its pet types in listing order, each with the
 * pets filed under it. A store that does not answer during a request (the calls
 * that end in Python's `except` or a non-200 status) is one outside the `up` set.
 */
module Availability {
  import opened Wrappers
  import opened Seqs
  import opened Text
  import opened PetRecords

  /** The store selectors the service has a URL for: {1: PET_STORE_1_URL, 2: PET_STORE_2_URL}. */
  predicate IsStoreId(s: int) { s == 1 || s == 2 }

  /** One pet type as GET /pet-types lists it, with the pets GET /pet-types/{id}/pets lists for it. */
  datatype ListedType = ListedType(id: string, typeName: string, pets: seq<Pet>)

  /** A store's inventory: its pet types in listing order. */
  type Inventory = seq<ListedType>

  /** The two configured stores. */
  datatype Stores = Stores(store1: Inventory, store2: Inventory) {
    function At(s: int): Inventory
      requires IsStoreId(s)
    {
      if s == 1 then store1 else store2
    }

    function With(s: int, inv: Inventory): (r: Stores)
      requires IsStoreId(s)
      ensures r.At(s) == inv
      ensures forall o :: IsStoreId(o) && o != s ==> r.At(o) == At(o)
    {
      if s == 1 then this.(store1 := inv) else this.(store2 := inv)
    }
  }

  /** Pet names are unique within a type (the store refuses a second pet of the same name). */
  predicate UniqueNames(pets: seq<Pet>) {
    forall i, j :: 0 <= i < j < |pets| ==> pets[i].name != pets[j].name
  }

  /** What a store keeps true of its inventory: distinct type ids, unique pet names per type. */
  predicate WellFormed(inv: Inventory) {
    && (forall i, j :: 0 <= i < j < |inv| ==> inv[i].id != inv[j].id)
    && (forall i :: 0 <= i < |inv| ==> UniqueNames(inv[i].pets))
  }

  // ---------------------------------------------------------------------------
  // The three calls into a store

  /** GET /pet-types on store `s`: the listing, or None when the store does not answer. */
  function ListPetTypes(stores: Stores, up: set<int>, s: int): (r: Option<Inventory>)
    requires IsStoreId(s)
    ensures r.Some? <==> s in up
    ensures r.Some? ==> r.value == stores.At(s)
  {
    if s in up then Some(stores.At(s)) else None
  }

  /** The type-name comparison of get_pet_type_id: equal after lower-casing both. */
  predicate NamesType(t: ListedType, typeName: string) {
    SameIgnoringCase(t.typeName, typeName)
  }

  /** Position `k` holds the first type of `types` whose name matches `typeName`. */
  predicate FirstNamedAt(types: Inventory, typeName: string, k: int) {
    && 0 <= k < |types|
    && NamesType(types[k], typeName)
    && forall i :: 0 <= i < k ==> !NamesType(types[i], typeName)
  }

  /** get_pet_type_id: the id of the first listed type named `typeName` ignoring case; None when
      the listing failed or no type matches. */
  function GetPetTypeId(listing: Option<Inventory>, typeName: string): (r: Option<string>)
    ensures r.None? <==> listing.None? || forall i :: 0 <= i < |listing.value| ==> !NamesType(listing.value[i], typeName)
    ensures r.Some? ==> exists k :: FirstNamedAt(listing.value, typeName, k) && r.value == listing.value[k].id
  {
    match listing
    case None => None
    case Some(types) =>
      var k := FirstIndex(types, (t: ListedType) => NamesType(t, typeName));
      if k < |types| then
        assert FirstNamedAt(types, typeName, k);
        Some(types[k].id)
      else None
  }

  /** The store's lookup of a type by id: the pets filed under the first type with that id,
      or None (its 404) when there is no such type. */
  function PetsUnder(inv: Inventory, id: string): (r: Option<seq<Pet>>)
    ensures r.None? <==> forall i :: 0 <= i < |inv| ==> inv[i].id != id
    ensures r.Some? ==> exists k :: 0 <= k < |inv| && inv[k].id == id && r.value == inv[k].pets
  {
    var k := FirstIndex(inv, (t: ListedType) => t.id == id);
    if k < |inv| then Some(inv[k].pets) else None
  }

  /** get_pets_of_type: the pets store `s` lists for type `id`; [] when the store does not answer
      or does not know the type. */
  function GetPetsOfType(stores: Stores, up: set<int>, s: int, id: string): (r: seq<Pet>)
    requires IsStoreId(s)
    ensures s !in up || PetsUnder(stores.At(s), id).None? ==> r == []
    ensures s in up && PetsUnder(stores.At(s), id).Some? ==> r == PetsUnder(stores.At(s), id).value
    ensures r != [] ==> exists k :: 0 <= k < |stores.At(s)| && stores.At(s)[k].id == id && r == stores.At(s)[k].pets
  {
    if s in up then
      match PetsUnder(stores.At(s), id)
      case Some(pets) => pets
      case None => []
    else []
  }

  /** The store's side of DELETE /pet-types/{id}/pets/{name}: the inventory without the first pet
      of that name under the first type with that id; None (its 404) when there is no such pet. */
  function RemovePet(inv: Inventory, id: string, name: string): (r: Option<Inventory>)
    ensures r.Some? <==> PetsUnder(inv, id).Some? && exists p :: p in PetsUnder(inv, id).value && p.name == name
  {
    var k := FirstIndex(inv, (t: ListedType) => t.id == id);
    if k == |inv| then None
    else
      var pets := inv[k].pets;
      var j := FirstIndex(pets, (p: Pet) => p.name == name);
      if j == |pets| then
        assert forall p :: p in pets ==> p.name != name by {
          forall p | p in pets ensures p.name != name {
            var i :| 0 <= i < |pets| && pets[i] == p;
          }
        }
        None
      else Some(inv[k := inv[k].(pets := pets[..j] + pets[j + 1..])])
  }

  /** delete_pet_from_store: true exactly when the store answered the DELETE with 204. */
  function DeletePetFromStore(stores: Stores, reachable: bool, s: int, id: string, name: string): (r: Option<Stores>)
    requires IsStoreId(s)
    ensures r.Some? <==> reachable && RemovePet(stores.At(s), id, name).Some?
    ensures r.Some? ==> r.value.At(s) == RemovePet(stores.At(s), id, name).value
    ensures r.Some? ==> forall o :: IsStoreId(o) && o != s ==> r.value.At(o) == stores.At(o)
  {
    if !reachable then None
    else
      match RemovePet(stores.At(s), id, name)
      case None => None
      case Some(inv) => Some(stores.With(s, inv))
  }

  // ---------------------------------------------------------------------------
  // Candidates and the three selection policies

  /** A resolved pet with its originating store and type id (enough to address the DELETE). */
  datatype Candidate = Candidate(pet: Pet, store: int, typeId: string)

  /** The type id the resolver works with in store `s`: a failed listing, no match and an
      empty id (`if not pet_type_id`) all count as none. */
  function ResolveTypeId(stores: Stores, up: set<int>, s: int, typeName: string): (r: Option<string>)
    requires IsStoreId(s)
    ensures r.Some? ==> s in up && r.value != "" && exists k :: FirstNamedAt(stores.At(s), typeName, k) && r.value == stores.At(s)[k].id
    ensures s in up && (exists k :: FirstNamedAt(stores.At(s), typeName, k) && stores.At(s)[k].id != "") ==> r.Some?
  {
    var id := GetPetTypeId(ListPetTypes(stores, up, s), typeName);
    if id.Some? && id.value != "" then id else None
  }

  /** Store `s`'s pets of the requested type, each tagged with `s` and the resolved type id. */
  function StoreCandidates(stores: Stores, up: set<int>, s: int, typeName: string): (r: seq<Candidate>)
    requires IsStoreId(s)
    ensures ResolveTypeId(stores, up, s, typeName).None? ==> r == []
    ensures ResolveTypeId(stores, up, s, typeName).Some? ==>
              |r| == |GetPetsOfType(stores, up, s, ResolveTypeId(stores, up, s, typeName).value)|
    ensures forall c :: c in r ==>
              && c.store == s
              && ResolveTypeId(stores, up, s, typeName) == Some(c.typeId)
              && c.pet in GetPetsOfType(stores, up, s, c.typeId)
    ensures ResolveTypeId(stores, up, s, typeName).Some? ==>
              var id := ResolveTypeId(stores, up, s, typeName).value;
              forall p :: p in GetPetsOfType(stores, up, s, id) ==> Candidate(p, s, id) in r
  {
    match ResolveTypeId(stores, up, s, typeName)
    case None => []
    case Some(id) =>
      var pets := GetPetsOfType(stores, up, s, id);
      var r := seq(|pets|, i requires 0 <= i < |pets| => Candidate(pets[i], s, id));
      assert forall p :: p in pets ==> Candidate(p, s, id) in r by {
        forall p | p in pets ensures Candidate(p, s, id) in r {
          var i :| 0 <= i < |pets| && pets[i] == p;
          assert r[i] == Candidate(p, s, id);
        }
      }
      r
  }

  /** Python's truthiness of the optional store selector and pet name. */
  predicate HasStore(store: Option<int>) { store.Some? && store.value != 0 }
  predicate HasPetName(petName: Option<string>) { petName.Some? && petName.value != "" }

  /** Policy 1: the first pet of store `s` and the type whose name is exactly `petName`. */
  function FindNamed(stores: Stores, up: set<int>, s: int, typeName: string, petName: string): (r: Option<Candidate>)
    requires IsStoreId(s)
    ensures r.Some? ==> r.value.pet.name == petName && r.value in StoreCandidates(stores, up, s, typeName)
    ensures r.None? <==> forall c :: c in StoreCandidates(stores, up, s, typeName) ==> c.pet.name != petName
  {
    match ResolveTypeId(stores, up, s, typeName)
    case None => None
    case Some(id) =>
      var pets := GetPetsOfType(stores, up, s, id);
      var k := FirstIndex(pets, (p: Pet) => p.name == petName);
      if k < |pets| then Some(Candidate(pets[k], s, id))
      else
        assert forall p :: p in pets ==> p.name != petName by {
          forall p | p in pets ensures p.name != petName {
            var i :| 0 <= i < |pets| && pets[i] == p;
          }
        }
        None
  }

  /** The candidates `random.choice` draws from: the selected store's (policy 2), or store 1's
      followed by store 2's (policy 3). */
  function Pool(stores: Stores, up: set<int>, typeName: string, store: Option<int>): (r: seq<Candidate>)
    ensures forall c :: c in r ==> IsStoreId(c.store) && c in StoreCandidates(stores, up, c.store, typeName)
    ensures HasStore(store) ==> forall c :: c in r ==> c.store == store.value
    ensures HasStore(store) && !IsStoreId(store.value) ==> r == []
    ensures !HasStore(store) ==>
      |r| == |StoreCandidates(stores, up, 1, typeName)| + |StoreCandidates(stores, up, 2, typeName)|
      && forall c :: c in StoreCandidates(stores, up, 1, typeName) || c in StoreCandidates(stores, up, 2, typeName) ==> c in r
    ensures HasStore(store) && IsStoreId(store.value) ==> r == StoreCandidates(stores, up, store.value, typeName)
    ensures !HasStore(store) ==> r == StoreCandidates(stores, up, 1, typeName) + StoreCandidates(stores, up, 2, typeName)
  {
    if HasStore(store) then
      if IsStoreId(store.value) then StoreCandidates(stores, up, store.value, typeName) else []
    else StoreCandidates(stores, up, 1, typeName) + StoreCandidates(stores, up, 2, typeName)
  }

  /** The random draw is an index into the pool whenever a policy draws from a non-empty pool. */
  predicate DrawFits(stores: Stores, up: set<int>, typeName: string, store: Option<int>, petName: Option<string>, draw: nat) {
    !(HasStore(store) && HasPetName(petName)) ==>
      var pool := Pool(stores, up, typeName, store);
      pool == [] || draw < |pool|
  }

  /** find_available_pet, as a specification: the candidate each policy yields, or None. */
  function Resolve(stores: Stores, up: set<int>, typeName: string, store: Option<int>, petName: Option<string>, draw: nat)
    : (r: Option<Candidate>)
    requires DrawFits(stores, up, typeName, store, petName, draw)
    ensures r.Some? ==> IsStoreId(r.value.store)
    // a selector without a URL finds nothing
    ensures HasStore(store) && !IsStoreId(store.value) ==> r.None?
    // policy 1: exact, case-sensitive name in the requested store
    ensures HasStore(store) && HasPetName(petName) && IsStoreId(store.value) ==>
              && (r.Some? <==> exists c :: c in StoreCandidates(stores, up, store.value, typeName) && c.pet.name == petName.value)
              && (r.Some? ==> r.value.pet.name == petName.value && r.value.store == store.value
                              && r.value in StoreCandidates(stores, up, store.value, typeName))
    // policy 2: any pet the requested store lists for the type
    ensures HasStore(store) && !HasPetName(petName) && IsStoreId(store.value) ==>
              && (r.Some? <==> StoreCandidates(stores, up, store.value, typeName) != [])
              && (r.Some? ==> r.value.store == store.value && r.value in StoreCandidates(stores, up, store.value, typeName))
    // policy 3: any pet of the pooled listings of both stores
    ensures !HasStore(store) ==>
              && (r.Some? <==> StoreCandidates(stores, up, 1, typeName) + StoreCandidates(stores, up, 2, typeName) != [])
              && (r.Some? ==> r.value in StoreCandidates(stores, up, 1, typeName) + StoreCandidates(stores, up, 2, typeName))
    // policies 2 and 3: the draw picks the pooled candidate at its index
    ensures !(HasStore(store) && HasPetName(petName)) && Pool(stores, up, typeName, store) != [] ==>
              r == Some(Pool(stores, up, typeName, store)[draw])
  {
    if HasStore(store) && HasPetName(petName) then
      if IsStoreId(store.value) then FindNamed(stores, up, store.value, typeName, petName.value) else None
    else
      var pool := Pool(stores, up, typeName, store);
      if pool == [] then None
      else
        var c := pool[draw];
        assert c in StoreCandidates(stores, up, 1, typeName) + StoreCandidates(stores, up, 2, typeName) ==>
               c in StoreCandidates(stores, up, 1, typeName) || c in StoreCandidates(stores, up, 2, typeName);
        Some(c)
  }

  /** The draw is over the pooled candidates, not over stores: every pooled candidate, from
      either store, is what some draw yields. */
  lemma EveryPooledCandidateIsDrawable(stores: Stores, up: set<int>, typeName: string, store: Option<int>,
                                       petName: Option<string>, c: Candidate)
    requires !(HasStore(store) && HasPetName(petName)) && c in Pool(stores, up, typeName, store)
    ensures exists draw: nat :: DrawFits(stores, up, typeName, store, petName, draw)
                                && Resolve(stores, up, typeName, store, petName, draw) == Some(c)
  {
    var pool := Pool(stores, up, typeName, store);
    var i :| 0 <= i < |pool| && pool[i] == c;
    assert DrawFits(stores, up, typeName, store, petName, i);
    assert Resolve(stores, up, typeName, store, petName, i) == Some(c);
  }

  /** Distinct draws within the pool yield distinct positions: each pooled entry is the result of
      exactly one draw, so with store 1's and store 2's candidates pooled no store is favoured. */
  lemma DrawsMatchPositions(stores: Stores, up: set<int>, typeName: string, store: Option<int>,
                            petName: Option<string>)
    requires !(HasStore(store) && HasPetName(petName))
    ensures forall draw: nat :: draw < |Pool(stores, up, typeName, store)| ==>
              DrawFits(stores, up, typeName, store, petName, draw)
              && Resolve(stores, up, typeName, store, petName, draw) == Some(Pool(stores, up, typeName, store)[draw])
  {
  }

  /** The pool policy 3 has gathered before visiting store `sid`. */
  function GatheredBefore(stores: Stores, up: set<int>, typeName: string, sid: int): seq<Candidate>
  {
    if sid <= 1 then []
    else if sid == 2 then StoreCandidates(stores, up, 1, typeName)
    else StoreCandidates(stores, up, 1, typeName) + StoreCandidates(stores, up, 2, typeName)
  }

  /** One turn of policy 3's loop: the pets of store `sid`, tagged, appended to the pool. */
  method AppendStorePets(stores: Stores, up: set<int>, sid: int, typeName: string, available: seq<Candidate>)
    returns (r: seq<Candidate>)
    requires IsStoreId(sid)
    ensures r == available + StoreCandidates(stores, up, sid, typeName)
  {
    r := available;
    var id := ResolveTypeId(stores, up, sid, typeName);
    if id.Some? {
      var pets := GetPetsOfType(stores, up, sid, id.value);
      ghost var tagged := StoreCandidates(stores, up, sid, typeName);
      assert forall j :: 0 <= j < |pets| ==> tagged[j] == Candidate(pets[j], sid, id.value);
      for i := 0 to |pets|
        invariant r == available + tagged[..i]
      {
        assert tagged[..i + 1] == tagged[..i] + [tagged[i]];
        r := r + [Candidate(pets[i], sid, id.value)];
      }
      assert tagged[..|pets|] == tagged;
    }
  }

  /** find_available_pet: policies 1 and 2 look in one store; policy 3 visits both stores in
      order, appending every matching pet to one pool before drawing from it. */
  method FindAvailablePet(stores: Stores, up: set<int>, typeName: string, store: Option<int>, petName: Option<string>, draw: nat)
    returns (r: Option<Candidate>)
    requires DrawFits(stores, up, typeName, store, petName, draw)
    ensures r == Resolve(stores, up, typeName, store, petName, draw)
  {
    if HasStore(store) && HasPetName(petName) {
      if !IsStoreId(store.value) {
        return None;
      }
      r := FindNamed(stores, up, store.value, typeName, petName.value);
    } else if HasStore(store) {
      if !IsStoreId(store.value) {
        return None;
      }
      var pets := StoreCandidates(stores, up, store.value, typeName);
      r := if pets == [] then None else Some(pets[draw]);
    } else {
      var available: seq<Candidate> := [];
      var sid := 1;
      while sid <= 2
        invariant 1 <= sid <= 3
        invariant available == GatheredBefore(stores, up, typeName, sid)
      {
        available := AppendStorePets(stores, up, sid, typeName, available);
        sid := sid + 1;
      }
      assert available == Pool(stores, up, typeName, store);
      r := if available == [] then None else Some(available[draw]);
    }
  }

  // ---------------------------------------------------------------------------
  // What a removal does to the inventory

  /** A pet the resolver returned can be removed by the DELETE that follows (one request at a time). */
  lemma ResolvedPetIsRemovable(stores: Stores, up: set<int>, s: int, typeName: string, c: Candidate)
    requires IsStoreId(s)
    requires c in StoreCandidates(stores, up, s, typeName)
    ensures RemovePet(stores.At(s), c.typeId, c.pet.name).Some?
  {
    assert c.pet in PetsUnder(stores.At(s), c.typeId).value;
  }

  /** Removal keeps every type's id and name, and every other type's pets. */
  lemma RemovePetKeepsTypes(inv: Inventory, id: string, name: string)
    requires RemovePet(inv, id, name).Some?
    ensures var inv' := RemovePet(inv, id, name).value;
            && |inv'| == |inv|
            && (forall i :: 0 <= i < |inv| ==> inv'[i].id == inv[i].id && inv'[i].typeName == inv[i].typeName)
            && (forall i :: 0 <= i < |inv| && inv[i].id != id ==> inv'[i] == inv[i])
  {
  }

  /** Dropping position `j` of a pet list with unique names leaves exactly the pets of other names. */
  lemma DropNamed(pets: seq<Pet>, j: nat)
    requires UniqueNames(pets) && j < |pets|
    ensures var rest := pets[..j] + pets[j + 1..];
            && UniqueNames(rest)
            && |rest| == |pets| - 1
            && forall p :: p in rest <==> p in pets && p.name != pets[j].name
  {
    var rest := pets[..j] + pets[j + 1..];
    forall a, b | 0 <= a < b < |rest| ensures rest[a].name != rest[b].name {
      var a' := if a < j then a else a + 1;
      var b' := if b < j then b else b + 1;
      assert rest[a] == pets[a'] && rest[b] == pets[b'];
    }
    forall p ensures p in rest <==> p in pets && p.name != pets[j].name {
      if p in rest {
        var i :| 0 <= i < |rest| && rest[i] == p;
        var i' := if i < j then i else i + 1;
        assert pets[i'] == p && i' != j;
      }
      if p in pets && p.name != pets[j].name {
        var i :| 0 <= i < |pets| && pets[i] == p;
        if i < j { assert rest[i] == p; } else { assert rest[i - 1] == p; }
      }
    }
  }

  /** Replacing the pets of the type at `k` changes what the store lists for that type's id only. */
  lemma PetsUnderUpdate(inv: Inventory, k: nat, pets: seq<Pet>)
    requires k < |inv| && k == FirstIndex(inv, (t: ListedType) => t.id == inv[k].id)
    ensures var inv' := inv[k := inv[k].(pets := pets)];
            && PetsUnder(inv', inv[k].id) == Some(pets)
            && forall other :: other != inv[k].id ==> PetsUnder(inv', other) == PetsUnder(inv, other)
  {
    var id := inv[k].id;
    var inv' := inv[k := inv[k].(pets := pets)];
    FirstIndexAgrees(inv, inv', (t: ListedType) => t.id == id, k);
    forall other | other != id ensures PetsUnder(inv', other) == PetsUnder(inv, other) {
      var ko := FirstIndex(inv, (t: ListedType) => t.id == other);
      FirstIndexAgrees(inv, inv', (t: ListedType) => t.id == other, ko);
    }
  }

  /** After a removal from a well-formed inventory the type lists the other pets and no pet of
      that name, and the inventory is still well-formed. */
  lemma RemovedPetIsGone(inv: Inventory, id: string, name: string)
    requires WellFormed(inv)
    requires RemovePet(inv, id, name).Some?
    ensures var inv' := RemovePet(inv, id, name).value;
            && WellFormed(inv')
            && PetsUnder(inv', id).Some?
            && |PetsUnder(inv', id).value| == |PetsUnder(inv, id).value| - 1
            && (forall p :: p in PetsUnder(inv', id).value <==> p in PetsUnder(inv, id).value && p.name != name)
            && (forall other :: other != id ==> PetsUnder(inv', other) == PetsUnder(inv, other))
  {
    var k := FirstIndex(inv, (t: ListedType) => t.id == id);
    var pets := inv[k].pets;
    var j := FirstIndex(pets, (p: Pet) => p.name == name);
    var rest := pets[..j] + pets[j + 1..];
    DropNamed(pets, j);
    PetsUnderUpdate(inv, k, rest);
    var inv' := inv[k := inv[k].(pets := rest)];
    assert RemovePet(inv, id, name).value == inv';
    assert WellFormed(inv') by {
      assert forall i :: 0 <= i < |inv| ==> inv'[i].id == inv[i].id;
    }
  }

  /** Two sequences whose elements agree on `p` position by position have the same first index. */
  lemma {:induction false} FirstIndexAgrees<T>(a: seq<T>, b: seq<T>, p: T -> bool, k: nat)
    requires |a| == |b|
    requires forall i :: 0 <= i < |a| ==> p(a[i]) == p(b[i])
    requires k == FirstIndex(a, p)
    ensures FirstIndex(b, p) == k
    decreases |a|
  {
    if a != [] && !p(a[0]) {
      FirstIndexAgrees(a[1..], b[1..], p, k - 1);
    }
  }

  /** get_pet_type_id reads only the types' names and ids, so listings that agree on those
      resolve every name alike. */
  lemma TypeIdOfSameNames(a: Inventory, b: Inventory, typeName: string)
    requires |a| == |b|
    requires forall i :: 0 <= i < |a| ==> a[i].id == b[i].id && a[i].typeName == b[i].typeName
    ensures GetPetTypeId(Some(a), typeName) == GetPetTypeId(Some(b), typeName)
  {
    var named := (t: ListedType) => NamesType(t, typeName);
    assert forall i :: 0 <= i < |a| ==> named(a[i]) == named(b[i]);
    FirstIndexAgrees(a, b, named, FirstIndex(a, named));
  }

  /** Removing a pet changes no store's resolution of a type name. */
  lemma RemovalKeepsTypeIds(stores: Stores, up: set<int>, s: int, id: string, name: string, typeName: string)
    requires IsStoreId(s)
    requires DeletePetFromStore(stores, true, s, id, name).Some?
    ensures var after := DeletePetFromStore(stores, true, s, id, name).value;
            ResolveTypeId(after, up, s, typeName) == ResolveTypeId(stores, up, s, typeName)
  {
    var inv := stores.At(s);
    var after := DeletePetFromStore(stores, true, s, id, name).value;
    RemovePetKeepsTypes(inv, id, name);
    if s in up {
      TypeIdOfSameNames(inv, after.At(s), typeName);
    }
  }

  /** Once a pet found by name has been removed, the same named request finds nothing: a pet
      cannot be sold twice. */
  lemma NamedPetCannotBeFoundAgain(stores: Stores, up: set<int>, s: int, typeName: string, petName: string)
    requires IsStoreId(s) && WellFormed(stores.At(s))
    requires FindNamed(stores, up, s, typeName, petName).Some?
    ensures var c := FindNamed(stores, up, s, typeName, petName).value;
            var after := DeletePetFromStore(stores, true, s, c.typeId, c.pet.name);
            after.Some? && FindNamed(after.value, up, s, typeName, petName).None?
  {
    var c := FindNamed(stores, up, s, typeName, petName).value;
    ResolvedPetIsRemovable(stores, up, s, typeName, c);
    var after := DeletePetFromStore(stores, true, s, c.typeId, c.pet.name).value;
    RemovedPetIsGone(stores.At(s), c.typeId, c.pet.name);
    RemovalKeepsTypeIds(stores, up, s, c.typeId, c.pet.name, typeName);
    assert forall d :: d in StoreCandidates(after, up, s, typeName) ==> d.pet.name != petName;
  }
}

=== FILE: birthdates.dfy ===
/**
 * The birthdate range filter of the inventory service's pet listing
 * (GET /pet-types/{id}/pets?birthdateGT=…&birthdateLT=…): dates are day-month-year
 * text read as datetime.strptime(text, "%d-%m-%Y") reads it.
 */
module Birthdates {
  import opened Wrappers
  import opened Seqs
  import opened Text
  import opened PetRecords

  // ---------------------------------------------------------------------------
  // Calendar dates

  datatype Date = Date(year: int, month: int, day: int)

  predicate IsLeap(year: int) {
    year % 4 == 0 && (year % 100 != 0 || year % 400 == 0)
  }

  function DaysInMonth(year: int, month: int): int
    requires 1 <= month <= 12
  {
    if month == 2 then (if IsLeap(year) then 29 else 28)
    else if month == 4 || month == 6 || month == 9 || month == 11 then 30
    else 31
  }

  /** A date the datetime type can hold: years 1 to 9999 and a day that exists in its month. */
  predicate ValidDate(d: Date) {
    1 <= d.year <= 9999 && 1 <= d.month <= 12 && 1 <= d.day <= DaysInMonth(d.year, d.month)
  }

  /** Chronological order of dates (datetime's <). */
  predicate Before(a: Date, b: Date) {
    a.year < b.year
    || (a.year == b.year && a.month < b.month)
    || (a.year == b.year && a.month == b.month && a.day < b.day)
  }

  /** Before is a strict total order. */
  lemma BeforeIsStrictTotalOrder(a: Date, b: Date, c: Date)
    ensures !Before(a, a)
    ensures Before(a, b) && Before(b, c) ==> Before(a, c)
    ensures a == b || Before(a, b) || Before(b, a)
    ensures !(Before(a, b) && Before(b, a))
  {
  }

  // ---------------------------------------------------------------------------
  // strptime(text, "%d-%m-%Y")

  predicate IsDash(c: char) { c == '-' }

  /** The %d field: one or two digits naming a day 1..31, or a space and a digit 1..9. The
      text accepted for day n is its two-digit form and, for n up to 9, its one-digit form
      with or without a leading space. */
  function DayField(s: string): (r: Option<int>)
    ensures r.Some? ==> 1 <= r.value <= 31
    ensures r.Some? ==> s == Pad2(r.value) || (r.value <= 9 && (s == [Digit(r.value)] || s == [' ', Digit(r.value)]))
  {
    if |s| == 2 && s[0] == ' ' && '1' <= s[1] <= '9' then Some(s[1] as int - '0' as int)
    else if 1 <= |s| <= 2 && AllDigits(s) && 1 <= DigitsValue(s) <= 31 then
      DigitsForms(s);
      Some(DigitsValue(s))
    else None
  }

  /** The %m field: one or two digits naming a month 1..12, in its two-digit form or, up to 9,
      its one-digit form. */
  function MonthField(s: string): (r: Option<int>)
    ensures r.Some? ==> 1 <= r.value <= 12
    ensures r.Some? ==> s == Pad2(r.value) || (r.value <= 9 && s == [Digit(r.value)])
  {
    if 1 <= |s| <= 2 && AllDigits(s) && 1 <= DigitsValue(s) <= 12 then
      DigitsForms(s);
      Some(DigitsValue(s))
    else None
  }

  /** One or two digits are the one- or two-digit rendering of their value. */
  lemma DigitsForms(s: string)
    requires 1 <= |s| <= 2 && AllDigits(s)
    ensures DigitsValue(s) <= 99
    ensures |s| == 2 ==> s == Pad2(DigitsValue(s))
    ensures |s| == 1 ==> DigitsValue(s) <= 9 && s == [Digit(DigitsValue(s))]
  {
    assert s[..|s| - 1][..0] == [];
    if |s| == 2 {
      assert s[..1] == [s[0]];
    }
  }

  /** Day n reads from "0n"/"nn", and for n up to 9 also from "n" and " n"; month n likewise,
      without the space form. */
  lemma FieldForms(n: int)
    requires 1 <= n <= 31
    ensures DayField(Pad2(n)) == Some(n)
    ensures n <= 9 ==> DayField([Digit(n)]) == Some(n) && DayField([' ', Digit(n)]) == Some(n)
    ensures n <= 12 ==> MonthField(Pad2(n)) == Some(n)
    ensures n <= 9 ==> MonthField([Digit(n)]) == Some(n)
  {
    Pad2Value(n);
    if n <= 9 {
      var one := [Digit(n)];
      assert one[..0] == [];
    }
  }

  /** The %Y field: exactly four digits. */
  function YearField(s: string): Option<int> {
    if |s| == 4 && AllDigits(s) then Some(DigitsValue(s)) else None
  }

  /** The date the text names, or None when strptime would raise (the service's
      parse_date_range turns every exception into None). */
  function ParseDate(s: string): (r: Option<Date>)
    ensures r.Some? ==> ValidDate(r.value)
    ensures r.Some? ==> (exists dt, mt :: s == dt + "-" + mt + "-" + Pad4(r.value.year)
                                          && DayField(dt) == Some(r.value.day) && MonthField(mt) == Some(r.value.month))
  {
    var i := FirstIndex(s, IsDash);
    if i == |s| then None
    else
      var rest := s[i + 1..];
      var j := FirstIndex(rest, IsDash);
      if j == |rest| then None
      else
        var day := DayField(s[..i]);
        var month := MonthField(rest[..j]);
        var year := YearField(rest[j + 1..]);
        if day.None? || month.None? || year.None? then None
        else
          var d := Date(year.value, month.value, day.value);
          if ValidDate(d) then
            SpellsDate(s, i, j, d);
            Some(d)
          else None
  }

  /** Text cut at two dashes into fields that read as a date's day, month and year spells
      that date. */
  lemma SpellsDate(s: string, i: nat, j: nat, d: Date)
    requires i < |s| && s[i] == '-' && j < |s[i + 1..]| && s[i + 1..][j] == '-'
    requires DayField(s[..i]) == Some(d.day) && MonthField(s[i + 1..][..j]) == Some(d.month)
    requires YearField(s[i + 1..][j + 1..]) == Some(d.year)
    ensures 0 <= d.year <= 9999
    ensures exists dt, mt :: s == dt + "-" + mt + "-" + Pad4(d.year)
                             && DayField(dt) == Some(d.day) && MonthField(mt) == Some(d.month)
  {
    var rest := s[i + 1..];
    YearForm(rest[j + 1..]);
    assert s == s[..i] + "-" + rest[..j] + "-" + rest[j + 1..];
  }

  /** Four digits are the four-digit rendering of their value. */
  lemma YearForm(t: string)
    requires |t| == 4 && AllDigits(t)
    ensures DigitsValue(t) <= 9999 && t == Pad4(DigitsValue(t))
  {
    var hi, lo := t[..2], t[2..];
    FourDigits(t);
    DigitsForms(hi);
    DigitsForms(lo);
    var a, b := DigitsValue(hi), DigitsValue(lo);
    DivMod100(a, b);
    assert t == hi + lo;
  }

  lemma DivMod100(a: int, b: int)
    requires 0 <= a <= 99 && 0 <= b <= 99
    ensures (100 * a + b) / 100 == a && (100 * a + b) % 100 == b
  {
  }

  /** Conversely, any day and month text the fields accept, joined by dashes to the
      four-digit year, reads back as the date. */
  lemma {:induction false} ParseDateOfFields(dt: string, mt: string, d: Date)
    requires ValidDate(d) && DayField(dt) == Some(d.day) && MonthField(mt) == Some(d.month)
    ensures ParseDate(dt + "-" + mt + "-" + Pad4(d.year)) == Some(d)
  {
    var yyyy := Pad4(d.year);
    var s := dt + "-" + mt + "-" + yyyy;
    NoDash(dt, d.day);
    NoDash(mt, d.month);
    var rest := mt + "-" + yyyy;
    assert s == dt + "-" + rest;
    DashSplit(dt, rest);
    DashSplit(mt, yyyy);
    Pad4Value(d.year);
    ParseDateReads(s, dt, rest, mt, yyyy, d);
  }

  /** ParseDate in terms of where its two dashes fall and what the three fields read. */
  lemma ParseDateReads(s: string, dt: string, rest: string, mt: string, yt: string, d: Date)
    requires ValidDate(d)
    requires FirstIndex(s, IsDash) == |dt| < |s| && s[..|dt|] == dt && s[|dt| + 1..] == rest
    requires FirstIndex(rest, IsDash) == |mt| < |rest| && rest[..|mt|] == mt && rest[|mt| + 1..] == yt
    requires DayField(dt) == Some(d.day) && MonthField(mt) == Some(d.month) && YearField(yt) == Some(d.year)
    ensures ParseDate(s) == Some(d)
  {
  }

  /** Field text the day or month reader accepts holds no dash. */
  lemma NoDash(f: string, n: int)
    requires 1 <= n <= 31
    requires f == Pad2(n) || (n <= 9 && (f == [Digit(n)] || f == [' ', Digit(n)]))
    ensures forall k :: 0 <= k < |f| ==> f[k] != '-'
  {
  }

  /** Splitting a dash-free head off at the first dash gives back both parts. */
  lemma DashSplit(a: string, b: string)
    requires forall k :: 0 <= k < |a| ==> a[k] != '-'
    ensures FirstIndex(a + "-" + b, IsDash) == |a|
    ensures (a + "-" + b)[..|a|] == a && (a + "-" + b)[|a| + 1..] == b
  {
    FirstDashAt(a + "-" + b, |a|);
  }

  /** The placeholder for an unknown birthdate is never a date. */
  lemma NotAvailableIsNoDate()
    ensures ParseDate("NA") == None
  {
    assert FirstIndex("NA", IsDash) == 2;
  }

  // ---------------------------------------------------------------------------
  // Formatting as dd-mm-yyyy, the inverse of ParseDate

  function Digit(n: int): char
    requires 0 <= n <= 9
  {
    ('0' as int + n) as char
  }

  function Pad2(n: int): (r: string)
    requires 0 <= n <= 99
    ensures |r| == 2 && AllDigits(r)
  {
    [Digit(n / 10), Digit(n % 10)]
  }

  function Pad4(n: int): (r: string)
    requires 0 <= n <= 9999
    ensures |r| == 4 && AllDigits(r)
  {
    Pad2(n / 100) + Pad2(n % 100)
  }

  /** The date as zero-padded dd-mm-yyyy text, the format the service stores. */
  function Format(d: Date): (r: string)
    requires ValidDate(d)
    ensures |r| == 10 && r[2] == '-' && r[5] == '-'
  {
    Pad2(d.day) + "-" + Pad2(d.month) + "-" + Pad4(d.year)
  }

  lemma {:induction false} Pad2Value(n: int)
    requires 0 <= n <= 99
    ensures DigitsValue(Pad2(n)) == n
  {
    var p := Pad2(n);
    assert p[..1] == [Digit(n / 10)];
    assert DigitsValue(p[..1][..0]) == 0;
  }

  lemma {:induction false} Pad4Value(n: int)
    requires 0 <= n <= 9999
    ensures DigitsValue(Pad4(n)) == n
  {
    var p := Pad4(n);
    Pad2Value(n / 100);
    Pad2Value(n % 100);
    assert p[..2] == Pad2(n / 100) && p[2..] == Pad2(n % 100);
    FourDigits(p);
  }

  /** A four-digit run is read as its first two digits, times 100, plus its last two. */
  lemma FourDigits(s: string)
    requires |s| == 4 && AllDigits(s)
    ensures DigitsValue(s) == 100 * DigitsValue(s[..2]) + DigitsValue(s[2..])
  {
    var a, b, c, d := s[0] as int - '0' as int, s[1] as int - '0' as int, s[2] as int - '0' as int, s[3] as int - '0' as int;
    assert s[..3][..2] == s[..2] && s[..2][..1] == s[..1] && s[..1][..0] == [];
    assert DigitsValue(s[..1]) == a;
    assert DigitsValue(s[..2]) == 10 * a + b;
    assert DigitsValue(s[..3]) == 100 * a + 10 * b + c;
    assert DigitsValue(s) == 1000 * a + 100 * b + 10 * c + d;
    assert s[2..][..1] == [s[2]] && [s[2]][..0] == [];
    assert DigitsValue(s[2..]) == 10 * c + d;
  }

  /** Where the first dash of a text is, when the text before it has none. */
  lemma FirstDashAt(s: string, i: nat)
    requires i < |s| && s[i] == '-'
    requires forall k :: 0 <= k < i ==> s[k] != '-'
    ensures FirstIndex(s, IsDash) == i
  {
  }

  /** Reading back a formatted date gives the date. */
  lemma {:induction false} ParseFormat(d: Date)
    requires ValidDate(d)
    ensures ParseDate(Format(d)) == Some(d)
  {
    FieldForms(d.day);
    FieldForms(d.month);
    ParseDateOfFields(Pad2(d.day), Pad2(d.month), d);
  }

  // ---------------------------------------------------------------------------
  // The filter

  /** The decision for one pet: an unknown ("NA") or unreadable birthdate drops it; a bound
      that is given (non-empty) and readable must be passed strictly; other bounds are ignored. */
  predicate Kept(p: Pet, gt: Option<string>, lt: Option<string>)
    ensures Kept(p, gt, lt) ==> ParseDate(p.birthdate).Some?
    ensures !Truthy(gt) && !Truthy(lt) ==> (Kept(p, gt, lt) <==> ParseDate(p.birthdate).Some?)
  {
    NotAvailableIsNoDate();
    var date := ParseDate(p.birthdate);
    && p.birthdate != "NA"
    && date.Some?
    && (Truthy(gt) && ParseDate(gt.value).Some? ==> Before(ParseDate(gt.value).value, date.value))
    && (Truthy(lt) && ParseDate(lt.value).Some? ==> Before(date.value, ParseDate(lt.value).value))
  }

  function Keeper(gt: Option<string>, lt: Option<string>): Pet -> bool {
    p => Kept(p, gt, lt)
  }

  /** The pets the filter lets through, in listing order. */
  function InRange(pets: seq<Pet>, gt: Option<string>, lt: Option<string>): (r: seq<Pet>)
    ensures IsSubsequence(r, pets)
    ensures forall p :: p in r ==> Kept(p, gt, lt)
  {
    Filter(pets, Keeper(gt, lt))
  }

  /** No pet that passes the bounds is lost. */
  lemma InRangeComplete(pets: seq<Pet>, gt: Option<string>, lt: Option<string>, p: Pet)
    requires p in pets && Kept(p, gt, lt)
    ensures p in InRange(pets, gt, lt)
  {
    FilterKeeps(pets, Keeper(gt, lt), p);
  }

  /** A kept pet has a real birthdate strictly inside every readable bound. */
  lemma InRangeWithinBounds(pets: seq<Pet>, gt: string, lt: string, p: Pet)
    requires p in InRange(pets, Some(gt), Some(lt))
    requires ParseDate(gt).Some? && ParseDate(lt).Some? && gt != "" && lt != ""
    ensures p in pets
    ensures ParseDate(p.birthdate).Some?
    ensures Before(ParseDate(gt).value, ParseDate(p.birthdate).value)
    ensures Before(ParseDate(p.birthdate).value, ParseDate(lt).value)
  {
    SubsequenceMembers(InRange(pets, Some(gt), Some(lt)), pets);
  }

  /** A window whose lower bound is not before its upper bound lets nothing through. */
  lemma EmptyWindow(pets: seq<Pet>, gt: string, lt: string)
    requires ParseDate(gt).Some? && ParseDate(lt).Some? && gt != "" && lt != ""
    requires !Before(ParseDate(gt).value, ParseDate(lt).value)
    ensures InRange(pets, Some(gt), Some(lt)) == []
  {
    var r := InRange(pets, Some(gt), Some(lt));
    if r != [] {
      var p := r[0];
      assert p in r && Kept(p, Some(gt), Some(lt));
      var g, l, b := ParseDate(gt).value, ParseDate(lt).value, ParseDate(p.birthdate).value;
      assert Before(g, b) && Before(b, l);
      BeforeIsStrictTotalOrder(g, b, l);
      BeforeIsStrictTotalOrder(g, l, g);
    }
  }

  /** A bound that does not read as a date is ignored. */
  lemma UnreadableBoundIgnored(pets: seq<Pet>, gt: Option<string>, lt: Option<string>)
    requires gt.Some? && ParseDate(gt.value).None?
    ensures InRange(pets, gt, lt) == InRange(pets, None, lt)
  {
    FilterCongruent(pets, Keeper(gt, lt), Keeper(None, lt));
  }

  /** Likewise for the upper bound. */
  lemma UnreadableUpperBoundIgnored(pets: seq<Pet>, gt: Option<string>, lt: Option<string>)
    requires lt.Some? && ParseDate(lt.value).None?
    ensures InRange(pets, gt, lt) == InRange(pets, gt, None)
  {
    FilterCongruent(pets, Keeper(gt, lt), Keeper(gt, None));
  }

  /** The listing's filtering loop: with neither bound given the pets come back unchanged;
      otherwise exactly the pets in range, in order. */
  method FilterByBirthdate(pets: seq<Pet>, gt: Option<string>, lt: Option<string>) returns (r: seq<Pet>)
    ensures !Truthy(gt) && !Truthy(lt) ==> r == pets
    ensures Truthy(gt) || Truthy(lt) ==> r == InRange(pets, gt, lt)
  {
    if !Truthy(gt) && !Truthy(lt) {
      return pets;
    }
    r := [];
    for i := 0 to |pets|
      invariant r == InRange(pets[..i], gt, lt)
    {
      var pet := pets[i];
      InRangeStep(pets, i, gt, lt);
      if pet.birthdate == "NA" {
        continue;
      }
      var petDate := ParseDate(pet.birthdate);
      if petDate.None? {
        continue;
      }
      var includePet := true;
      if Truthy(gt) {
        var gtDate := ParseDate(gt.value);
        if gtDate.Some? && !Before(gtDate.value, petDate.value) {
          includePet := false;
        }
      }
      if Truthy(lt) {
        var ltDate := ParseDate(lt.value);
        if ltDate.Some? && !Before(petDate.value, ltDate.value) {
          includePet := false;
        }
      }
      assert includePet == Kept(pet, gt, lt);
      if includePet {
        r := r + [pet];
      }
    }
    assert pets[..|pets|] == pets;
  }

  /** One more pet: the range of the longer prefix adds that pet exactly when it is kept. */
  lemma InRangeStep(pets: seq<Pet>, i: nat, gt: Option<string>, lt: Option<string>)
    requires i < |pets|
    ensures InRange(pets[..i + 1], gt, lt)
            == InRange(pets[..i], gt, lt) + (if Kept(pets[i], gt, lt) then [pets[i]] else [])
  {
    FilterSnoc(pets, i, Keeper(gt, lt));
  }
}

=== FILE: common.dfy ===
/** Option, used for every "absent" outcome of the services (Python's None). */
module Wrappers {
  datatype Option<+T> = None | Some(value: T)
}

/** Generic facts about sequences used by both services. */
module Seqs {

  /** `a` can be obtained from `b` by deleting elements, keeping the order of the rest. */
  predicate IsSubsequence<T(==)>(a: seq<T>, b: seq<T>)
    decreases |b|
  {
    a == [] || (b != [] && (if a[0] == b[0] then IsSubsequence(a[1..], b[1..]) else IsSubsequence(a, b[1..])))
  }

  /** The elements of `s` that satisfy `keep`, in their original order. */
  function Filter<T(==)>(s: seq<T>, keep: T -> bool): (r: seq<T>)
    ensures IsSubsequence(r, s)
    ensures forall x :: x in r ==> x in s && keep(x)
    decreases |s|
  {
    if s == [] then []
    else
      var rest := Filter(s[1..], keep);
      if keep(s[0]) then
        assert ([s[0]] + rest)[1..] == rest;
        [s[0]] + rest
      else rest
  }

  /** Filtering keeps every occurrence of a kept value and none of a dropped one. */
  lemma {:induction false} FilterCounts<T>(s: seq<T>, keep: T -> bool, x: T)
    ensures multiset(Filter(s, keep))[x] == if keep(x) then multiset(s)[x] else 0
    decreases |s|
  {
    if s != [] {
      FilterCounts(s[1..], keep, x);
      assert s == [s[0]] + s[1..];
    }
  }

  /** Filtering with two predicates that agree on the elements of `s` gives the same result. */
  lemma {:induction false} FilterCongruent<T>(s: seq<T>, p: T -> bool, q: T -> bool)
    requires forall x :: x in s ==> p(x) == q(x)
    ensures Filter(s, p) == Filter(s, q)
    decreases |s|
  {
    if s != [] {
      FilterCongruent(s[1..], p, q);
    }
  }

  /** Filtering distributes over concatenation. */
  lemma {:induction false} FilterConcat<T>(a: seq<T>, b: seq<T>, keep: T -> bool)
    ensures Filter(a + b, keep) == Filter(a, keep) + Filter(b, keep)
    decreases |a|
  {
    if a != [] {
      var ab := a + b;
      assert ab[0] == a[0] && ab[1..] == a[1..] + b;
      FilterConcat(a[1..], b, keep);
      if keep(a[0]) {
        assert Filter(ab, keep) == [a[0]] + Filter(ab[1..], keep);
        assert Filter(a, keep) == [a[0]] + Filter(a[1..], keep);
      } else {
        assert Filter(ab, keep) == Filter(ab[1..], keep);
        assert Filter(a, keep) == Filter(a[1..], keep);
      }
    } else {
      assert a + b == b;
    }
  }

  /** Filtering keeps a sequence whose every element is kept. */
  lemma {:induction false} FilterAll<T>(s: seq<T>, keep: T -> bool)
    requires forall i :: 0 <= i < |s| ==> keep(s[i])
    ensures Filter(s, keep) == s
    decreases |s|
  {
    if s != [] {
      FilterAll(s[1..], keep);
      assert s == [s[0]] + s[1..];
    }
  }

  /** Filtering empties a sequence none of whose elements is kept. */
  lemma {:induction false} FilterNone<T>(s: seq<T>, keep: T -> bool)
    requires forall i :: 0 <= i < |s| ==> !keep(s[i])
    ensures Filter(s, keep) == []
    decreases |s|
  {
    if s != [] {
      FilterNone(s[1..], keep);
    }
  }

  /** Filtering a dropped prefix, a kept run and a tail keeps the run and what the tail yields. */
  lemma FilterAroundRun<T>(lead: seq<T>, run: seq<T>, tail: seq<T>, keep: T -> bool)
    requires forall k :: 0 <= k < |lead| ==> !keep(lead[k])
    requires forall k :: 0 <= k < |run| ==> keep(run[k])
    ensures Filter(lead + run + tail, keep) == run + Filter(tail, keep)
  {
    var head := lead + run;
    FilterNone(lead, keep);
    FilterAll(run, keep);
    FilterConcat(lead, run, keep);
    assert Filter(head, keep) == run by {
      assert Filter(lead, keep) + Filter(run, keep) == [] + run;
      assert [] + run == run;
    }
    FilterConcat(head, tail, keep);
  }

  /** Filtering one more element of a prefix appends it exactly when it is kept. */
  lemma FilterSnoc<T>(s: seq<T>, i: nat, keep: T -> bool)
    requires i < |s|
    ensures Filter(s[..i + 1], keep) == Filter(s[..i], keep) + (if keep(s[i]) then [s[i]] else [])
  {
    FilterConcat(s[..i], [s[i]], keep);
    assert s[..i + 1] == s[..i] + [s[i]];
  }

  /** Every element of `s` that satisfies `keep` is kept. */
  lemma FilterKeeps<T>(s: seq<T>, keep: T -> bool, x: T)
    requires x in s && keep(x)
    ensures x in Filter(s, keep)
  {
    FilterCounts(s, keep, x);
    assert multiset(s)[x] > 0;
  }

  /** A subsequence holds no element its super-sequence lacks. */
  lemma {:induction false} SubsequenceMembers<T>(a: seq<T>, b: seq<T>)
    requires IsSubsequence(a, b)
    ensures forall x :: x in a ==> x in b
    decreases |b|
  {
    if a != [] {
      if a[0] == b[0] {
        SubsequenceMembers(a[1..], b[1..]);
        assert a == [a[0]] + a[1..];
      } else {
        SubsequenceMembers(a, b[1..]);
      }
    }
  }

  /** The index of the first element satisfying `p`, or |s| when there is none. */
  function FirstIndex<T>(s: seq<T>, p: T -> bool): (k: nat)
    ensures k <= |s|
    ensures k < |s| ==> p(s[k])
    ensures forall i :: 0 <= i < k ==> !p(s[i])
    decreases |s|
  {
    if s == [] then 0 else if p(s[0]) then 0 else 1 + FirstIndex(s[1..], p)
  }

  /** No value occurs twice. */
  predicate NoDuplicates<T(==)>(s: seq<T>) {
    forall i, j :: 0 <= i < j < |s| ==> s[i] != s[j]
  }
}

/** Character classes and text helpers, restricted to what the services use. */
module Text {
  import opened Wrappers
  import opened Seqs

  /** Python's truthiness of an optional text: present and non-empty. */
  predicate Truthy(text: Option<string>) { text.Some? && text.value != "" }

  /** Python's str.isspace(): the ASCII controls 9-13 and 28-31, the space, and the Unicode separators. */
  predicate IsSpace(c: char) {
    c == ' ' || ('\t' <= c <= '\r') || ('\U{1C}' <= c <= '\U{1F}') || c == '\U{85}' || c == '\U{A0}'
    || c == '\U{1680}' || ('\U{2000}' <= c <= '\U{200A}') || c == '\U{2028}' || c == '\U{2029}'
    || c == '\U{202F}' || c == '\U{205F}' || c == '\U{3000}'
  }

  predicate IsDigit(c: char) { '0' <= c <= '9' }

  /** A character of the regular-expression class \w, ASCII letters, digits and the underscore. */
  predicate IsWordChar(c: char) {
    ('a' <= c <= 'z') || ('A' <= c <= 'Z') || IsDigit(c) || c == '_'
  }

  predicate AllDigits(s: string) { forall i :: 0 <= i < |s| ==> IsDigit(s[i]) }

  /** The value of a run of decimal digits, as Python's int() gives it (leading zeros allowed). */
  function DigitsValue(s: string): nat
    requires AllDigits(s)
    decreases |s|
  {
    if s == [] then 0 else 10 * DigitsValue(s[..|s| - 1]) + (s[|s| - 1] as int - '0' as int)
  }

  /** str.lstrip(): drops the leading whitespace. */
  function StripLeft(s: string): (r: string)
    ensures |r| <= |s| && r == s[|s| - |r|..]
    ensures r == [] || !IsSpace(r[0])
    ensures forall k :: 0 <= k < |s| - |r| ==> IsSpace(s[k])
    decreases |s|
  {
    if s != [] && IsSpace(s[0]) then StripLeft(s[1..]) else s
  }

  /** str.rstrip(): drops the trailing whitespace. */
  function StripRight(s: string): (r: string)
    ensures |r| <= |s| && r == s[..|r|]
    ensures r == [] || !IsSpace(r[|r| - 1])
    ensures forall k :: |r| <= k < |s| ==> IsSpace(s[k])
    decreases |s|
  {
    if s != [] && IsSpace(s[|s| - 1]) then StripRight(s[..|s| - 1]) else s
  }

  /** `r` is the slice of `s` starting at `i`, and everything of `s` around it is whitespace. */
  predicate SpaceAround(s: string, r: string, i: int) {
    0 <= i <= |s| - |r| && r == s[i..i + |r|]
    && (forall k :: 0 <= k < i ==> IsSpace(s[k]))
    && (forall k :: i + |r| <= k < |s| ==> IsSpace(s[k]))
  }

  /** str.strip(): the text between the leading and the trailing whitespace. */
  function Strip(s: string): (r: string)
    ensures r == [] || (!IsSpace(r[0]) && !IsSpace(r[|r| - 1]))
    ensures exists i :: SpaceAround(s, r, i)
  {
    var l := StripLeft(s);
    var r := StripRight(l);
    var i := |s| - |l|;
    assert SpaceAround(s, r, i);
    r
  }

  /** Stripping twice changes nothing more than stripping once. */
  lemma StripIdempotent(s: string)
    ensures Strip(Strip(s)) == Strip(s)
  {
    var t := Strip(s);
    assert StripLeft(t) == t;
    assert StripRight(t) == t;
  }

  /** ASCII case folding of one character. */
  function LowerChar(c: char): char {
    if 'A' <= c <= 'Z' then (c as int + 32) as char else c
  }

  function Lower(s: string): (r: string)
    ensures |r| == |s|
  {
    seq(|s|, i requires 0 <= i < |s| => LowerChar(s[i]))
  }

  /** Equality ignoring (ASCII) letter case. */
  predicate SameIgnoringCase(a: string, b: string) { Lower(a) == Lower(b) }
}

/** The JSON values a request body field can hold, as far as the handlers distinguish them. */
module JsonValues {
  import opened Wrappers

  /** JOther stands for booleans, floats, arrays and objects. */
  datatype Json = JNull | JInt(n: int) | JStr(s: string) | JOther

  /** `"key" in data and isinstance(data["key"], str)`; a missing key is None. */
  predicate IsText(field: Option<Json>) { field.Some? && field.value.JStr? }

  /** `data.get("key") is not None`: the key is present and not JSON null. */
  predicate IsPresent(field: Option<Json>) { field.Some? && !field.value.JNull? }
}

/** A pet as a store lists it under GET /pet-types/{id}/pets. */
module PetRecords {
  /** The birthdate is day-month-year text or "NA"; the picture is a file name or "NA". */
  datatype Pet = Pet(name: string, birthdate: string, picture: string)
}

=== FILE: pet_store.dfy ===
/**
 * One inventory store: its pet types, each with the list of the names of its pets, and
 * its pet records. The handlers that create and delete types and pets keep every type's
 * name list in step with the records of that type.
 */
module PetStore {
  import opened Wrappers
  import opened Seqs
  import opened Text
  import opened JsonValues
  import opened PetRecords
  import opened AnimalInfo
  import opened Pictures

  /** A pet type as stored; `pets` lists the names of its pets in the order they were added. */
  datatype PetType = PetType(
    typeName: string,
    family: string,
    genus: string,
    attributes: seq<string>,
    lifespan: Option<nat>,
    pets: seq<string>)

  /** A pet record is found by its type's id and its name. */
  datatype PetKey = PetKey(typeId: string, name: string)

  datatype StoredPet = StoredPet(birthdate: string, picture: string)

  /** One animal of the animal-facts service's answer; absent text fields are None. */
  datatype AnimalRecord = AnimalRecord(
    name: Option<string>,
    family: Option<string>,
    genus: Option<string>,
    temperament: Option<string>,
    groupBehavior: Option<string>,
    lifespan: Option<string>)

  /** What the animal-facts service answered: the animals for a name, or a status other
      than 200 (a failed call counts as status 500). */
  datatype AnimalReply = Animals(animals: seq<AnimalRecord>) | Status(code: int)

  /** What a handler answers. */
  datatype Reply =
    | NotFound
    | Malformed
    | UpstreamError(code: int)
    | TypeCreated(id: string, petType: PetType)
    | PetSaved(pet: Pet)
    | Deleted

  /** `$pull`: the names other than `x`, in order. */
  function Without(names: seq<string>, x: string): (r: seq<string>)
    ensures forall y :: y in r <==> y in names && y != x
    ensures IsSubsequence(r, names)
    ensures NoDuplicates(names) ==> NoDuplicates(r)
    ensures |r| <= |names|
    ensures multiset(r) == multiset(names)[x := 0]
  {
    if names == [] then []
    else
      var rest := Without(names[1..], x);
      PullCount(names, rest, x);
      assert NoDuplicates(names) ==> NoDuplicates(names[1..]) && names[0] !in names[1..];
      if names[0] == x then
        assert rest != [] ==> rest[0] in rest && rest[0] != names[0];
        rest
      else
        assert ([names[0]] + rest)[1..] == rest;
        assert NoDuplicates(names) ==> NoDuplicates([names[0]] + rest) by {
          if NoDuplicates(names) {
            ConsNoDuplicates(names[0], rest);
          }
        }
        [names[0]] + rest
  }

  /** One step of `$pull` on multiplicities: the head is dropped exactly when it is `x`. */
  lemma PullCount(names: seq<string>, rest: seq<string>, x: string)
    requires names != [] && multiset(rest) == multiset(names[1..])[x := 0]
    ensures multiset(if names[0] == x then rest else [names[0]] + rest) == multiset(names)[x := 0]
  {
    assert names == [names[0]] + names[1..];
  }

  lemma ConsNoDuplicates(h: string, t: seq<string>)
    requires h !in t && NoDuplicates(t)
    ensures NoDuplicates([h] + t)
  {
    var s := [h] + t;
    forall i, j | 0 <= i < j < |s|
      ensures s[i] != s[j]
    {
      if i == 0 {
        assert s[j] == t[j - 1];
      } else {
        assert s[i] == t[i - 1] && s[j] == t[j - 1];
      }
    }
  }

  /** Pulling a name that was just pushed gives the list back. */
  lemma {:induction false} WithoutAppended(names: seq<string>, x: string)
    requires x !in names
    ensures Without(names + [x], x) == names
    decreases |names|
  {
    if names == [] {
      assert names + [x] == [x];
    } else {
      assert (names + [x])[1..] == names[1..] + [x];
      WithoutAppended(names[1..], x);
      assert names == [names[0]] + names[1..];
    }
  }

  /** Pulling a name that is absent changes nothing. */
  lemma {:induction false} WithoutAbsent(names: seq<string>, x: string)
    requires x !in names
    ensures Without(names, x) == names
    decreases |names|
  {
    if names != [] {
      WithoutAbsent(names[1..], x);
      assert names == [names[0]] + names[1..];
    }
  }

  /** The animal's name equals the requested type name, ignoring case. */
  predicate NamesAnimal(a: AnimalRecord, typeName: string) {
    SameIgnoringCase(OrEmpty(a.name), typeName)
  }

  /** The animal whose name equals the requested one ignoring case, the first if several do. */
  function MatchingAnimal(animals: seq<AnimalRecord>, typeName: string): (r: Option<AnimalRecord>)
    ensures r.Some? ==> exists i ::
      && 0 <= i < |animals| && r.value == animals[i] && NamesAnimal(animals[i], typeName)
      && forall j :: 0 <= j < i ==> !NamesAnimal(animals[j], typeName)
    ensures r.None? <==> forall a :: a in animals ==> !NamesAnimal(a, typeName)
  {
    var i := FirstIndex(animals, (a: AnimalRecord) => NamesAnimal(a, typeName));
    if i == |animals| then None else Some(animals[i])
  }

  /** `dict.get(key, '')`. */
  function OrEmpty(text: Option<string>): string {
    if text.Some? then text.value else ""
  }

  /** The pet type made from a matching animal, with no pets yet; a missing family or genus
      is stored as empty text. */
  function NewPetType(typeName: string, animal: AnimalRecord): (t: PetType)
    ensures t.typeName == typeName && t.pets == []
    ensures animal.family.Some? ==> t.family == animal.family.value
    ensures animal.family.None? ==> t.family == ""
    ensures animal.genus.Some? ==> t.genus == animal.genus.value
    ensures animal.genus.None? ==> t.genus == ""
    ensures t.attributes == ParseAttributes(animal.temperament, animal.groupBehavior)
    ensures t.lifespan == ParseLifespan(animal.lifespan)
  {
    PetType(typeName, OrEmpty(animal.family), OrEmpty(animal.genus),
      ParseAttributes(animal.temperament, animal.groupBehavior), ParseLifespan(animal.lifespan), [])
  }

  /** `birthdate`, else `birthdate:`, else "NA" (a JSON null counts as absent). */
  function CreatedBirthdate(birthdate: Option<string>, birthdateColon: Option<string>): (r: string)
    ensures birthdate.Some? ==> r == birthdate.value
    ensures birthdate.None? && birthdateColon.Some? ==> r == birthdateColon.value
    ensures birthdate.None? && birthdateColon.None? ==> r == "NA"
  {
    if birthdate.Some? then birthdate.value
    else if birthdateColon.Some? then birthdateColon.value
    else "NA"
  }

  /** Every record belongs to an existing type and is listed by name in it. */
  predicate RecordsListed(types: map<string, PetType>, pets: map<PetKey, StoredPet>) {
    forall k :: k in pets ==> k.typeId in types && k.name in types[k.typeId].pets
  }

  /** Every name a type lists has its record. */
  predicate ListsRecorded(types: map<string, PetType>, pets: map<PetKey, StoredPet>) {
    forall id, n :: id in types && n in types[id].pets ==> PetKey(id, n) in pets
  }

  /** No type lists a name twice. */
  predicate ListsDistinct(types: map<string, PetType>) {
    forall id :: id in types ==> NoDuplicates(types[id].pets)
  }

  /** No two types share a name, ignoring case. */
  predicate TypeNamesDistinct(types: map<string, PetType>) {
    forall a, b :: a in types && b in types && a != b ==> !SameIgnoringCase(types[a].typeName, types[b].typeName)
  }

  /** The store invariant: the name lists and the records describe the same pets. */
  predicate Consistent(types: map<string, PetType>, pets: map<PetKey, StoredPet>) {
    RecordsListed(types, pets) && ListsRecorded(types, pets) && ListsDistinct(types) && TypeNamesDistinct(types)
  }

  /** Changing the name list of one type keeps the type names distinct. */
  lemma RetypeKeepsNames(types: map<string, PetType>, typeId: string, names: seq<string>)
    requires TypeNamesDistinct(types) && typeId in types
    ensures TypeNamesDistinct(types[typeId := types[typeId].(pets := names)])
  {
    var types' := types[typeId := types[typeId].(pets := names)];
    assert forall id :: id in types' ==> types'[id].typeName == types[id].typeName;
  }

  /** A new type with a fresh id, an unused name and no pets keeps the store consistent. */
  lemma AddTypeKeepsConsistent(types: map<string, PetType>, pets: map<PetKey, StoredPet>, id: string, t: PetType)
    requires Consistent(types, pets) && id !in types && t.pets == []
    requires forall b :: b in types ==> !SameIgnoringCase(types[b].typeName, t.typeName)
    ensures Consistent(types[id := t], pets)
  {
    var types' := types[id := t];
    assert ListsRecorded(types', pets) by {
      forall i, n | i in types' && n in types'[i].pets
        ensures PetKey(i, n) in pets
      {
        assert i != id;
      }
    }
  }

  /** Removing a type that lists no pets, with the records of that type, keeps the store
      consistent, and there are no such records to remove. */
  lemma DeleteTypeKeepsConsistent(types: map<string, PetType>, pets: map<PetKey, StoredPet>, id: string)
    requires Consistent(types, pets) && id in types && types[id].pets == []
    ensures (map k | k in pets && k.typeId != id :: pets[k]) == pets
    ensures Consistent(types - {id}, pets)
  {
    forall k | k in pets
      ensures k.typeId != id
    {
      assert k.name in types[k.typeId].pets;
    }
  }

  /** Adding a record under an unused name and appending the name keeps the store consistent. */
  lemma CreateKeepsConsistent(types: map<string, PetType>, pets: map<PetKey, StoredPet>,
                              id: string, name: string, record: StoredPet)
    requires Consistent(types, pets) && id in types && PetKey(id, name) !in pets
    ensures name !in types[id].pets
    ensures Consistent(types[id := types[id].(pets := types[id].pets + [name])], pets[PetKey(id, name) := record])
  {
    var t := types[id];
    var types' := types[id := t.(pets := t.pets + [name])];
    var pets' := pets[PetKey(id, name) := record];
    assert name !in t.pets;
    assert NoDuplicates(t.pets + [name]);
    RetypeKeepsNames(types, id, t.pets + [name]);
    assert RecordsListed(types', pets') by {
      forall k | k in pets'
        ensures k.typeId in types' && k.name in types'[k.typeId].pets
      {
        if k != PetKey(id, name) {
          assert k.name in types[k.typeId].pets;
        }
      }
    }
  }

  /** Removing a record and pulling its name keeps the store consistent. */
  lemma DeleteKeepsConsistent(types: map<string, PetType>, pets: map<PetKey, StoredPet>, id: string, name: string)
    requires Consistent(types, pets) && id in types && PetKey(id, name) in pets
    ensures Consistent(types[id := types[id].(pets := Without(types[id].pets, name))], pets - {PetKey(id, name)})
  {
    var t := types[id];
    RetypeKeepsNames(types, id, Without(t.pets, name));
  }

  /** Moving a record to a new unused name, pulling the old name and pushing the new one,
      keeps the store consistent. */
  lemma RenameKeepsConsistent(types: map<string, PetType>, pets: map<PetKey, StoredPet>,
                              id: string, name: string, newName: string, record: StoredPet)
    requires Consistent(types, pets) && id in types && PetKey(id, name) in pets
    requires newName != name && PetKey(id, newName) !in pets
    ensures Consistent(types[id := types[id].(pets := Without(types[id].pets, name) + [newName])],
                       (pets - {PetKey(id, name)})[PetKey(id, newName) := record])
  {
    var t := types[id];
    DeleteKeepsConsistent(types, pets, id, name);
    var types1 := types[id := t.(pets := Without(t.pets, name))];
    var pets1 := pets - {PetKey(id, name)};
    assert types1[id].pets == Without(t.pets, name);
    CreateKeepsConsistent(types1, pets1, id, newName, record);
    UpdateTwice(types, id, t.(pets := Without(t.pets, name)), t.(pets := Without(t.pets, name) + [newName]));
  }

  /** A second update of the same key overrides the first. */
  lemma UpdateTwice<K, V>(m: map<K, V>, k: K, v1: V, v2: V)
    ensures m[k := v1][k := v2] == m[k := v2]
  {
  }

  /** Replacing the record of an existing pet keeps the store consistent. */
  lemma ReplaceKeepsConsistent(types: map<string, PetType>, pets: map<PetKey, StoredPet>, key: PetKey, record: StoredPet)
    requires Consistent(types, pets) && key in pets
    ensures Consistent(types, (pets - {key})[key := record])
  {
    assert (pets - {key})[key := record].Keys == pets.Keys;
  }

  /** Some type is named `typeName`, ignoring case. */
  predicate NameTaken(types: map<string, PetType>, typeName: string) {
    exists id :: id in types && SameIgnoringCase(types[id].typeName, typeName)
  }

  /** The answer to POST /pet-types: the type name must be text; no type may have the
      trimmed name, ignoring case; the animal-facts service must answer with an animal of
      that name, from which the new type, with no pets, is made. */
  function AddTypeReply(types: map<string, PetType>, typeField: Option<Json>, reply: AnimalReply, freshId: string): (r: Reply)
    ensures !IsText(typeField) ==> r == Malformed
    ensures IsText(typeField) && NameTaken(types, Strip(typeField.value.s)) ==> r == Malformed
    ensures IsText(typeField) && !NameTaken(types, Strip(typeField.value.s)) && reply.Status? ==>
      r == UpstreamError(reply.code)
    ensures r.TypeCreated? <==>
      IsText(typeField) && !NameTaken(types, Strip(typeField.value.s)) && reply.Animals?
      && MatchingAnimal(reply.animals, Strip(typeField.value.s)).Some?
    ensures (IsText(typeField) && !NameTaken(types, Strip(typeField.value.s)) && reply.Animals?
             && MatchingAnimal(reply.animals, Strip(typeField.value.s)).None?) ==> r == Malformed
    ensures r.TypeCreated? ==>
      && r.id == freshId
      && r.petType == NewPetType(Strip(typeField.value.s), MatchingAnimal(reply.animals, Strip(typeField.value.s)).value)
      && r.petType.pets == []
      && forall id :: id in types ==> !SameIgnoringCase(types[id].typeName, r.petType.typeName)
  {
    if !IsText(typeField) then Malformed
    else
      var typeName := Strip(typeField.value.s);
      if NameTaken(types, typeName) then Malformed
      else if reply.Status? then UpstreamError(reply.code)
      else
        var animal := MatchingAnimal(reply.animals, typeName);
        if animal.None? then Malformed
        else TypeCreated(freshId, NewPetType(typeName, animal.value))
  }

  class Store {
    /** The pet types of this store, by id. */
    var types: map<string, PetType>
    /** The pet records of this store. */
    var pets: map<PetKey, StoredPet>

    predicate Valid()
      reads this
    {
      Consistent(types, pets)
    }

    constructor()
      ensures Valid()
      ensures types == map[] && pets == map[]
    {
      types := map[];
      pets := map[];
    }

    /** POST /pet-types: the reply is AddTypeReply's; a created type is stored under the
        fresh id and nothing else changes. */
    method AddPetType(typeField: Option<Json>, reply: AnimalReply, freshId: string) returns (out: Reply)
      requires Valid()
      requires freshId !in types
      modifies this
      ensures Valid()
      ensures out == AddTypeReply(old(types), typeField, reply, freshId)
      ensures out.TypeCreated? ==> types == old(types)[freshId := out.petType]
      ensures !out.TypeCreated? ==> types == old(types)
      ensures pets == old(pets)
    {
      out := AddTypeReply(types, typeField, reply, freshId);
      if out.TypeCreated? {
        AddTypeKeepsConsistent(types, pets, freshId, out.petType);
        types := types[freshId := out.petType];
      }
    }

    /** DELETE /pet-types/{id}: refused while the type lists pets; otherwise the type and every
        record of it go (there are none, by Valid). */
    method DeletePetType(typeId: string) returns (out: Reply)
      requires Valid()
      modifies this
      ensures Valid()
      ensures typeId !in old(types) ==> out == NotFound
      ensures typeId in old(types) && old(types)[typeId].pets != [] ==> out == Malformed
      ensures out == Deleted <==> typeId in old(types) && old(types)[typeId].pets == []
      ensures out == Deleted ==> types == old(types) - {typeId}
      ensures out != Deleted ==> types == old(types)
      ensures pets == old(pets)
    {
      if typeId !in types {
        return NotFound;
      }
      if types[typeId].pets != [] {
        return Malformed;
      }
      DeleteTypeKeepsConsistent(types, pets, typeId);
      var kept := map k | k in pets && k.typeId != typeId :: pets[k];
      types := types - {typeId};
      pets := kept;
      out := Deleted;
    }

    /** POST /pet-types/{id}/pets: the name must be text; after trimming, no pet of the type may
        have it; the record is added and the name appended to the type's list. */
    method CreatePet(typeId: string, nameField: Option<Json>, birthdate: Option<string>,
                     birthdateColon: Option<string>, url: Option<string>, path: string, downloaded: bool)
      returns (out: Reply)
      requires Valid()
      modifies this
      ensures Valid()
      ensures typeId !in old(types) ==> out == NotFound
      ensures typeId in old(types) && !IsText(nameField) ==> out == Malformed
      ensures typeId in old(types) && IsText(nameField) && PetKey(typeId, Strip(nameField.value.s)) in old(pets) ==>
        out == Malformed
      ensures !out.PetSaved? ==> types == old(types) && pets == old(pets)
      ensures out.PetSaved? <==>
        typeId in old(types) && IsText(nameField) && PetKey(typeId, Strip(nameField.value.s)) !in old(pets)
      ensures out.PetSaved? ==>
        var name := Strip(nameField.value.s);
        var t := old(types)[typeId];
        && out.pet == Pet(name, CreatedBirthdate(birthdate, birthdateColon),
                          PostPicture(name, t.typeName, url, path, downloaded))
        && pets == old(pets)[PetKey(typeId, name) := StoredPet(out.pet.birthdate, out.pet.picture)]
        && types == old(types)[typeId := t.(pets := t.pets + [name])]
    {
      if typeId !in types {
        return NotFound;
      }
      if !IsText(nameField) {
        return Malformed;
      }
      var name := Strip(nameField.value.s);
      var key := PetKey(typeId, name);
      if key in pets {
        return Malformed;
      }
      var t := types[typeId];
      var bd := CreatedBirthdate(birthdate, birthdateColon);
      var picture := PostPicture(name, t.typeName, url, path, downloaded);
      SaveCreated(typeId, name, StoredPet(bd, picture));
      out := PetSaved(Pet(name, bd, picture));
    }

    /** The writes of a POST: the record is stored and its name pushed at the end of the
        type's list. */
    method SaveCreated(typeId: string, name: string, record: StoredPet)
      requires Valid()
      requires typeId in types && PetKey(typeId, name) !in pets
      modifies this
      ensures Valid()
      ensures pets == old(pets)[PetKey(typeId, name) := record]
      ensures types == old(types)[typeId := old(types)[typeId].(pets := old(types)[typeId].pets + [name])]
    {
      var t := types[typeId];
      CreateKeepsConsistent(types, pets, typeId, name, record);
      pets := pets[PetKey(typeId, name) := record];
      types := types[typeId := t.(pets := t.pets + [name])];
    }

    /** DELETE /pet-types/{id}/pets/{name}: the record goes and the name is pulled from the
        type's list. */
    method DeletePet(typeId: string, name: string) returns (out: Reply)
      requires Valid()
      modifies this
      ensures Valid()
      ensures out == Deleted <==> typeId in old(types) && PetKey(typeId, name) in old(pets)
      ensures out != Deleted ==> out == NotFound && types == old(types) && pets == old(pets)
      ensures out == Deleted ==>
        var t := old(types)[typeId];
        && pets == old(pets) - {PetKey(typeId, name)}
        && types == old(types)[typeId := t.(pets := Without(t.pets, name))]
    {
      if typeId !in types || PetKey(typeId, name) !in pets {
        return NotFound;
      }
      var t := types[typeId];
      DeleteKeepsConsistent(types, pets, typeId, name);
      pets := pets - {PetKey(typeId, name)};
      types := types[typeId := t.(pets := Without(t.pets, name))];
      out := Deleted;
    }

    /** PUT /pet-types/{id}/pets/{name}: the pet may take a new (trimmed) name that no other pet
        of the type has; the record moves to the new name, whose entry goes to the end of the
        list; an omitted birthdate keeps the current one. */
    method UpdatePet(typeId: string, name: string, nameField: Option<Json>, birthdate: Option<string>,
                     url: Option<string>, path: string, downloaded: bool)
      returns (out: Reply)
      requires Valid()
      modifies this
      ensures Valid()
      ensures typeId !in old(types) || PetKey(typeId, name) !in old(pets) ==> out == NotFound
      ensures typeId in old(types) && PetKey(typeId, name) in old(pets) && !IsText(nameField) ==> out == Malformed
      ensures !out.PetSaved? ==> types == old(types) && pets == old(pets)
      ensures out.PetSaved? <==>
        typeId in old(types) && PetKey(typeId, name) in old(pets) && IsText(nameField)
        && (Strip(nameField.value.s) == name || PetKey(typeId, Strip(nameField.value.s)) !in old(pets))
      ensures out.PetSaved? ==>
        var newName := Strip(nameField.value.s);
        var t := old(types)[typeId];
        var current := old(pets)[PetKey(typeId, name)];
        && out.pet == Pet(newName, if birthdate.Some? then birthdate.value else current.birthdate,
                          PutPicture(current.picture, newName, t.typeName, url, path, downloaded))
        && pets == (old(pets) - {PetKey(typeId, name)})[PetKey(typeId, newName) := StoredPet(out.pet.birthdate, out.pet.picture)]
        && types == (if newName == name then old(types)
                     else old(types)[typeId := t.(pets := Without(t.pets, name) + [newName])])
    {
      if typeId !in types {
        return NotFound;
      }
      var oldKey := PetKey(typeId, name);
      if oldKey !in pets {
        return NotFound;
      }
      if !IsText(nameField) {
        return Malformed;
      }
      var newName := Strip(nameField.value.s);
      var newKey := PetKey(typeId, newName);
      if newName != name && newKey in pets {
        return Malformed;
      }
      var t := types[typeId];
      var current := pets[oldKey];
      var bd := if birthdate.Some? then birthdate.value else current.birthdate;
      var picture := PutPicture(current.picture, newName, t.typeName, url, path, downloaded);
      SaveRenamed(typeId, name, newName, StoredPet(bd, picture));
      out := PetSaved(Pet(newName, bd, picture));
    }

    /** The writes of a PUT: the record moves to `newName`, and a changed name is pulled from
        the type's list and pushed at its end. */
    method SaveRenamed(typeId: string, name: string, newName: string, record: StoredPet)
      requires Valid()
      requires typeId in types && PetKey(typeId, name) in pets
      requires newName == name || PetKey(typeId, newName) !in pets
      modifies this
      ensures Valid()
      ensures pets == (old(pets) - {PetKey(typeId, name)})[PetKey(typeId, newName) := record]
      ensures types == (if newName == name then old(types)
                        else old(types)[typeId := old(types)[typeId].(pets := Without(old(types)[typeId].pets, name) + [newName])])
    {
      var t := types[typeId];
      if newName != name {
        RenameKeepsConsistent(types, pets, typeId, name, newName, record);
        types := types[typeId := t.(pets := Without(t.pets, name) + [newName])];
      } else {
        ReplaceKeepsConsistent(types, pets, PetKey(typeId, name), record);
      }
      pets := (pets - {PetKey(typeId, name)})[PetKey(typeId, newName) := record];
    }
  }

  /** Creating a pet and then deleting it leaves the store as it was. */
  lemma CreateThenDeleteRestores(types: map<string, PetType>, typeId: string, name: string)
    requires typeId in types && name !in types[typeId].pets
    ensures
      var t := types[typeId];
      var created := types[typeId := t.(pets := t.pets + [name])];
      created[typeId := created[typeId].(pets := Without(created[typeId].pets, name))] == types
  {
    var t := types[typeId];
    WithoutAppended(t.pets, name);
    assert t.(pets := t.pets) == t;
  }

  /** Renaming a pet keeps the number of names its type lists. */
  lemma RenameKeepsCount(names: seq<string>, name: string, newName: string)
    requires NoDuplicates(names) && name in names && newName !in names
    ensures |Without(names, name) + [newName]| == |names|
  {
    WithoutOneFewer(names, name);
  }

  /** Pulling a name that occurs exactly once shortens the list by one. */
  lemma {:induction false} WithoutOneFewer(names: seq<string>, x: string)
    requires NoDuplicates(names) && x in names
    ensures |Without(names, x)| == |names| - 1
    decreases |names|
  {
    if names[0] == x {
      assert x !in names[1..];
      WithoutAbsent(names[1..], x);
    } else {
      assert x in names[1..];
      WithoutOneFewer(names[1..], x);
    }
  }
}

=== FILE: pictures.dfy ===
/**
 * The file name under which the inventory service saves a pet's picture: the
 * extension of the picture URL's path, normalised differently by POST and PUT.
 */
module Pictures {
  import opened Wrappers
  import opened Seqs
  import opened Text

  /** The index of the last occurrence of `c` in `s`, or -1 (str.rfind). */
  function LastIndex(s: string, c: char): (k: int)
    ensures -1 <= k < |s|
    ensures k >= 0 ==> s[k] == c
    ensures forall i :: k < i < |s| ==> s[i] != c
    decreases |s|
  {
    if s == [] then -1
    else if s[|s| - 1] == c then |s| - 1
    else LastIndex(s[..|s| - 1], c)
  }

  /** The last path component of `path` has a '.' after something other than a dot. */
  predicate HasExtension(path: string) {
    exists d, k :: LastIndex(path, '/') < k < d < |path| && path[k] != '.' && path[d] == '.'
  }

  /** os.path.splitext(path)[1] on POSIX: from the last '.' of the last path component,
      unless that component has nothing but dots before it (".bashrc" has no extension). */
  function Extension(path: string): (ext: string)
    ensures ext != [] <==> HasExtension(path)
    ensures ext != [] ==> |ext| <= |path| && ext == path[|path| - |ext|..]
    ensures ext != [] ==> ext[0] == '.' && forall k :: 1 <= k < |ext| ==> ext[k] != '.' && ext[k] != '/'
  {
    var sep := LastIndex(path, '/');
    var dot := LastIndex(path, '.');
    if dot > sep && exists k :: sep < k < dot && path[k] != '.' then
      path[dot..]
    else
      []
  }

  /** A dot file has no extension; otherwise the extension starts at the last dot. */
  lemma ExtensionExamples()
    ensures Extension("pics/.png") == ""
    ensures Extension("pics/cat.v2.JPG") == ".JPG"
  {
    var hidden, named := "pics/.png", "pics/cat.v2.JPG";
    assert hidden[4] == '/' && hidden[5] == '.';
    assert forall i :: 5 <= i < |hidden| ==> hidden[i] != '/';
    assert named[4] == '/' && named[5] != '.' && named[11] == '.';
    assert forall i :: 5 <= i < |named| ==> named[i] != '/';
    assert forall i :: 12 <= i < |named| ==> named[i] != '.';
    assert named[11..] == ".JPG";
  }

  /** The extension POST gives a saved picture: the lowered extension, with ".jpeg" read as
      ".jpg" and anything but ".jpg" or ".png" replaced by ".jpg". */
  function PostExtension(ext: string): (r: string)
    ensures r == ".jpg" || r == ".png"
    ensures r == ".png" <==> Lower(ext) == ".png"
  {
    var lowered := Lower(ext);
    var e := if lowered == ".jpeg" then ".jpg" else lowered;
    if e == ".jpg" || e == ".png" then e else ".jpg"
  }

  /** Normalising an extension that POST produced leaves it as it is. */
  lemma PostExtensionIdempotent(ext: string)
    ensures PostExtension(PostExtension(ext)) == PostExtension(ext)
  {
    var r := PostExtension(ext);
    assert Lower(".jpg") == ".jpg";
    assert Lower(".png") == ".png";
  }

  /** Every spelling of the JPEG extension, in any letter case, is saved as ".jpg". */
  lemma PostExtensionOfJpeg(ext: string)
    requires Lower(ext) == ".jpeg" || Lower(ext) == ".jpg"
    ensures PostExtension(ext) == ".jpg"
  {
  }

  /** The extension PUT gives a saved picture: the extension as written, or ".jpg" when
      the path has none. */
  function PutExtension(ext: string): (r: string)
    ensures r != []
    ensures ext != [] ==> r == ext
    ensures ext == [] ==> r == ".jpg"
  {
    if ext == [] then ".jpg" else ext
  }

  /** POST and PUT agree exactly on the two canonical extensions and on a missing one. */
  lemma PutAgreesWithPostOnCanonical(ext: string)
    requires ext == ".jpg" || ext == ".png" || ext == ""
    ensures PutExtension(ext) == PostExtension(ext)
  {
    assert Lower(".jpg") == ".jpg";
    assert Lower(".png") == ".png";
    assert Lower("") == "";
  }

  /** PUT keeps an extension POST would have normalised. */
  lemma PutKeepsUpperCase()
    ensures PutExtension(".PNG") == ".PNG" && PostExtension(".PNG") == ".png"
  {
    assert Lower(".PNG") == ".png";
  }

  predicate IsNotBlank(c: char) { c != ' ' }

  /** `name-type` with the blanks of the type removed, then the extension. */
  function PictureFilename(name: string, typeName: string, ext: string): (r: string)
    ensures |r| >= |name| + 1 + |ext|
    ensures r[..|name| + 1] == name + "-" && r[|r| - |ext|..] == ext
    ensures r[|name| + 1..|r| - |ext|] == Filter(typeName, IsNotBlank)
    ensures forall k :: |name| < k < |r| - |ext| ==> r[k] != ' '
  {
    var compact := Filter(typeName, IsNotBlank);
    var r := name + "-" + compact + ext;
    assert forall i :: 0 <= i < |compact| ==> compact[i] in compact && IsNotBlank(compact[i]);
    assert forall k :: |name| < k < |r| - |ext| ==> r[k] == compact[k - |name| - 1];
    r
  }

  /** `picture_url and picture_url.strip()`: a URL that is given and not blank. */
  predicate HasUrl(url: Option<string>) { url.Some? && Strip(url.value) != "" }

  /** The picture a new pet is created with: "NA" without a usable URL or when the download
      fails, else the POST file name. `path` is the path component of the URL. */
  function PostPicture(name: string, typeName: string, url: Option<string>, path: string, downloaded: bool): (r: string)
    ensures !HasUrl(url) || !downloaded ==> r == "NA"
    ensures HasUrl(url) && downloaded ==> r == PictureFilename(name, typeName, PostExtension(Extension(path)))
    ensures HasUrl(url) && downloaded ==> r[..|name| + 1] == name + "-" && |r| >= |name| + 5
    ensures HasUrl(url) && downloaded ==> r[|r| - 4..] == ".jpg" || r[|r| - 4..] == ".png"
  {
    if HasUrl(url) && downloaded then PictureFilename(name, typeName, PostExtension(Extension(path))) else "NA"
  }

  /** The picture of an updated pet: the current picture unless a usable URL was given and
      downloaded, in which case the PUT file name under the new pet name. */
  function PutPicture(current: string, newName: string, typeName: string, url: Option<string>, path: string, downloaded: bool): (r: string)
    ensures !HasUrl(url) || !downloaded ==> r == current
    ensures HasUrl(url) && downloaded ==> r == PictureFilename(newName, typeName, PutExtension(Extension(path)))
    ensures HasUrl(url) && downloaded ==> r[..|newName| + 1] == newName + "-" && |r| > |newName| + 1
  {
    if HasUrl(url) && downloaded then PictureFilename(newName, typeName, PutExtension(Extension(path))) else current
  }
}

=== FILE: purchases.dfy ===
/**
 * The purchase coordinator and the transaction ledger of the order service:
 * POST /purchases validates a request, resolves a pet, removes it from the
 * winning store and only then records a transaction; GET /transactions lists
 * the ledger to the holder of the shared secret, filtered by equality.
 */
module Purchases {
  import opened Wrappers
  import opened Seqs
  import opened Text
  import opened JsonValues
  import opened Availability

  // ---------------------------------------------------------------------------
  // Requests and their validation

  /** The fields of a POST /purchases body; None is a missing key. */
  datatype PurchaseRequest = PurchaseRequest(purchaser: Option<Json>, petType: Option<Json>, store: Option<Json>, petName: Option<Json>)

  /** A request that passed validation: trimmed purchaser and pet type, the optional store and pet name. */
  datatype Order = Order(purchaser: string, petType: string, store: Option<int>, petName: Option<string>)

  /** The checks of post_purchase, in the order the handler makes them; every failure is "Malformed data". */
  function Validate(req: PurchaseRequest): (r: Option<Order>)
    ensures !IsText(req.purchaser) ==> r.None?
    ensures !IsText(req.petType) ==> r.None?
    ensures IsPresent(req.store) && !req.store.value.JInt? ==> r.None?
    ensures IsPresent(req.petName) && !req.petName.value.JStr? ==> r.None?
    ensures IsPresent(req.store) && req.store.value.JInt? && !IsStoreId(req.store.value.n) ==> r.None?
    ensures IsPresent(req.petName) && req.petName.value.JStr? && req.petName.value.s != "" && !IsPresent(req.store) ==> r.None?
    ensures IsText(req.purchaser) && IsText(req.petType)
            && (IsPresent(req.store) ==> req.store.value.JInt? && IsStoreId(req.store.value.n))
            && (IsPresent(req.petName) ==> req.petName.value.JStr? && (req.petName.value.s != "" ==> IsPresent(req.store)))
            ==> r.Some?
    ensures r.Some? ==>
              && r.value.purchaser == Strip(req.purchaser.value.s)
              && r.value.petType == Strip(req.petType.value.s)
              && (r.value.store.Some? <==> IsPresent(req.store))
              && (r.value.store.Some? ==> IsStoreId(r.value.store.value) && req.store.value == JInt(r.value.store.value))
              && (r.value.petName.Some? <==> IsPresent(req.petName))
              && (r.value.petName.Some? ==> req.petName.value == JStr(r.value.petName.value))
              && (HasPetName(r.value.petName) ==> HasStore(r.value.store))
  {
    if !IsText(req.purchaser) || !IsText(req.petType) then None
    else if IsPresent(req.store) && !req.store.value.JInt? then None
    else if IsPresent(req.petName) && !req.petName.value.JStr? then None
    else if IsPresent(req.store) && !IsStoreId(req.store.value.n) then None
    else
      var store := if IsPresent(req.store) then Some(req.store.value.n) else None;
      var petName := if IsPresent(req.petName) then Some(req.petName.value.s) else None;
      if HasPetName(petName) && store.None? then None
      else Some(Order(Strip(req.purchaser.value.s), Strip(req.petType.value.s), store, petName))
  }

  // ---------------------------------------------------------------------------
  // Purchases and the ledger

  /** The confirmation POST /purchases returns with 201. */
  datatype Purchase = Purchase(purchaser: string, petType: string, store: int, petName: string, purchaseId: string)

  /** Malformed and NotAvailable are the handler's 400 answers, ServerFault its 500. */
  datatype PurchaseOutcome = Created(purchase: Purchase) | Malformed | NotAvailable | ServerFault

  /** A ledger record. */
  datatype Transaction = Transaction(purchaser: string, petType: string, store: int, purchaseId: string)

  /** No purchase id is recorded twice. */
  predicate DistinctIds(ledger: seq<Transaction>) {
    forall i, j :: 0 <= i < j < |ledger| ==> ledger[i].purchaseId != ledger[j].purchaseId
  }

  /** `id` has not been handed out yet: what a fresh uuid4 guarantees. */
  predicate UnusedId(ledger: seq<Transaction>, id: string) {
    forall i :: 0 <= i < |ledger| ==> ledger[i].purchaseId != id
  }

  /** The secret GET /transactions expects in its OwnerPC header. */
  const OwnerSecret: string := "LovesPetsL2M3n4"

  /** The value a query filter compares a field with. */
  datatype QueryValue = QText(text: string) | QInt(n: int)

  /** GET /transactions answers with the matching records (200) or Unauthorized (401). */
  datatype LedgerReply = Listed(records: seq<Transaction>) | Unauthorized

  /** The query parameters GET /transactions uses; all others are ignored. */
  predicate IsFilterKey(key: string) {
    key == "purchaser" || key == "pet-type" || key == "store" || key == "purchase-id"
  }

  /** Python's str(n) for a natural number. */
  function Decimal(n: nat): (r: string)
    ensures r != [] && AllDigits(r)
    decreases n
  {
    var d := [(('0' as int) + n % 10) as char];
    if n < 10 then d else Decimal(n / 10) + d
  }

  /** Text int() reads as a number: one or more decimal digits, after at most one sign. */
  predicate IsIntText(t: string) {
    exists k :: 0 <= k <= 1 && k < |t| && (k == 1 ==> t[0] == '-' || t[0] == '+') && AllDigits(t[k..])
  }

  /** int() of text without surrounding whitespace: digits after at most one sign, else None. */
  function ReadInt(t: string): (r: Option<int>)
    ensures r.Some? <==> IsIntText(t)
    ensures r.Some? && IsDigit(t[0]) ==> AllDigits(t) && r.value == DigitsValue(t)
    ensures r.Some? && t[0] == '+' ==> AllDigits(t[1..]) && r.value == DigitsValue(t[1..])
    ensures r.Some? && t[0] == '-' ==> AllDigits(t[1..]) && r.value == -(DigitsValue(t[1..]) as int)
  {
    assert t[0..] == t;
    if t != [] && AllDigits(t) then Some(DigitsValue(t))
    else if |t| >= 2 && (t[0] == '-' || t[0] == '+') && AllDigits(t[1..]) then
      var v: int := DigitsValue(t[1..]);
      Some(if t[0] == '-' then -v else v)
    else
      assert !IsIntText(t) by {
        if IsIntText(t) {
          var k :| 0 <= k <= 1 && k < |t| && (k == 1 ==> t[0] == '-' || t[0] == '+') && AllDigits(t[k..]);
        }
      }
      None
  }

  /** Python's int(text) for decimal text: surrounding whitespace, an optional sign, then digits. */
  function ParseInt(text: string): (r: Option<int>)
    ensures r.Some? <==> IsIntText(Strip(text))
    ensures r == ReadInt(Strip(text))
  {
    ReadInt(Strip(text))
  }

  lemma {:induction false} DecimalValue(n: nat)
    ensures DigitsValue(Decimal(n)) == n
    decreases n
  {
    var d := [(('0' as int) + n % 10) as char];
    if n >= 10 {
      DecimalValue(n / 10);
      var s := Decimal(n / 10) + d;
      assert s[..|s| - 1] == Decimal(n / 10);
    }
  }

  /** Text with no whitespace at either end is its own strip. */
  lemma StripUnpadded(s: string)
    requires s == [] || (!IsSpace(s[0]) && !IsSpace(s[|s| - 1]))
    ensures Strip(s) == s
  {
  }

  /** int(str(n)) == n: a store sent as a number's decimal text is read back as that number. */
  lemma ParseIntOfDecimal(n: nat)
    ensures ParseInt(Decimal(n)) == Some(n)
  {
    DecimalValue(n);
    ParseIntOfDigits(Decimal(n), n);
  }

  /** Digits alone parse as their value. */
  lemma ParseIntOfDigits(s: string, v: nat)
    requires s != [] && AllDigits(s) && DigitsValue(s) == v
    ensures ParseInt(s) == Some(v)
  {
    assert IsDigit(s[0]) && IsDigit(s[|s| - 1]);
    ParseUnpadded(s);
  }

  /** A minus sign before digits reads as the digits' value negated. */
  lemma ReadNegative(t: string)
    requires |t| >= 2 && t[0] == '-' && AllDigits(t[1..])
    ensures ReadInt(t) == Some(-(DigitsValue(t[1..]) as int))
  {
    assert !AllDigits(t) by {
      assert !IsDigit(t[0]);
    }
  }

  /** Text with no whitespace at either end parses as it reads. */
  lemma ParseUnpadded(t: string)
    requires t != [] && !IsSpace(t[0]) && !IsSpace(t[|t| - 1])
    ensures ParseInt(t) == ReadInt(t)
  {
    StripUnpadded(t);
  }

  /** A minus sign before digits parses as the digits' value negated. */
  lemma ParseIntOfSignedDigits(m: string, v: nat)
    requires |m| >= 2 && m[0] == '-' && AllDigits(m[1..]) && DigitsValue(m[1..]) == v
    ensures ParseInt(m) == Some(-(v as int))
  {
    assert IsDigit(m[1..][|m| - 2]);
    ParseUnpadded(m);
    ReadNegative(m);
  }

  /** A minus sign put before digits: what follows the sign is the digits. */
  lemma MinusDigits(s: string)
    requires s != [] && AllDigits(s)
    ensures |"-" + s| >= 2 && ("-" + s)[0] == '-'
    ensures ("-" + s)[1..] == s && AllDigits(("-" + s)[1..])
    ensures DigitsValue(("-" + s)[1..]) == DigitsValue(s)
  {
    assert ("-" + s)[1..] == s;
  }

  /** int("-" + str(n)) == -n. */
  lemma ParseIntOfNegative(n: nat)
    ensures ParseInt("-" + Decimal(n)) == Some(-(n as int))
  {
    DecimalValue(n);
    MinusDigits(Decimal(n));
    ParseIntOfSignedDigits("-" + Decimal(n), n);
  }

  /** The value a filter for `key` compares with: the store as an integer when the text parses as one. */
  function FilterValue(key: string, value: string): (r: QueryValue)
    ensures key != "store" ==> r == QText(value)
    ensures key == "store" ==> (r.QInt? <==> ParseInt(value).Some?)
    ensures r.QInt? ==> r.n == ParseInt(value).value
    ensures r.QText? ==> r.text == value
  {
    if key == "store" then
      match ParseInt(value)
      case Some(n) => QInt(n)
      case None => QText(value)
    else QText(value)
  }

  /** The value of a record's field under a filter key. */
  function Field(t: Transaction, key: string): Option<QueryValue> {
    if key == "purchaser" then Some(QText(t.purchaser))
    else if key == "pet-type" then Some(QText(t.petType))
    else if key == "store" then Some(QInt(t.store))
    else if key == "purchase-id" then Some(QText(t.purchaseId))
    else None
  }

  /** The database's equality match of a record against a query document. */
  predicate Matches(t: Transaction, query: map<string, QueryValue>) {
    forall k :: k in query ==> Field(t, k) == Some(query[k])
  }

  /** A record satisfies every recognised filter among the request's parameters. */
  predicate MatchesArgs(t: Transaction, args: seq<(string, string)>) {
    forall i :: 0 <= i < |args| && IsFilterKey(args[i].0) ==> Field(t, args[i].0) == Some(FilterValue(args[i].0, args[i].1))
  }

  /** Each query parameter name occurs once, as request.args.items() yields them. */
  predicate DistinctKeys(args: seq<(string, string)>) {
    forall i, j :: 0 <= i < j < |args| ==> args[i].0 != args[j].0
  }

  /** The records the ledger query returns, in ledger order. */
  function Selected(ledger: seq<Transaction>, args: seq<(string, string)>): (r: seq<Transaction>)
    ensures IsSubsequence(r, ledger)
    ensures forall t :: t in r <==> t in ledger && MatchesArgs(t, args)
  {
    var r := Filter(ledger, (t: Transaction) => MatchesArgs(t, args));
    assert forall t :: t in ledger && MatchesArgs(t, args) ==> t in r by {
      forall t | t in ledger && MatchesArgs(t, args) ensures t in r {
        FilterKeeps(ledger, (t: Transaction) => MatchesArgs(t, args), t);
      }
    }
    r
  }

  /** The loop of get_transactions that fills the query document from the request's parameters. */
  method BuildQuery(args: seq<(string, string)>) returns (query: map<string, QueryValue>)
    requires DistinctKeys(args)
    ensures forall k :: k in query ==> IsFilterKey(k) && exists i :: 0 <= i < |args| && args[i].0 == k
    ensures forall i :: 0 <= i < |args| && IsFilterKey(args[i].0) ==>
              args[i].0 in query && query[args[i].0] == FilterValue(args[i].0, args[i].1)
  {
    query := map[];
    for n := 0 to |args|
      invariant forall k :: k in query ==> IsFilterKey(k) && exists i :: 0 <= i < n && args[i].0 == k
      invariant forall i :: 0 <= i < n && IsFilterKey(args[i].0) ==>
                  args[i].0 in query && query[args[i].0] == FilterValue(args[i].0, args[i].1)
    {
      var (key, value) := args[n];
      if IsFilterKey(key) {
        query := query[key := FilterValue(key, value)];
      }
    }
  }

  /** A purchase-id filter alone matches exactly the records with that id. */
  lemma MatchesPurchaseId(t: Transaction, id: string)
    ensures MatchesArgs(t, [("purchase-id", id)]) <==> t.purchaseId == id
  {
    var args := [("purchase-id", id)];
    assert args[0].0 == "purchase-id" && IsFilterKey(args[0].0);
    assert Field(t, "purchase-id") == Some(QText(t.purchaseId));
    assert FilterValue("purchase-id", id) == QText(id);
  }

  /** With distinct purchase ids, filtering on one purchase id finds at most one record. */
  lemma {:induction false} PurchaseIdFindsAtMostOne(ledger: seq<Transaction>, id: string)
    requires DistinctIds(ledger)
    ensures |Selected(ledger, [("purchase-id", id)])| <= 1
    decreases |ledger|
  {
    var args := [("purchase-id", id)];
    if ledger != [] {
      var rest := ledger[1..];
      assert DistinctIds(rest) by {
        forall i, j | 0 <= i < j < |rest| ensures rest[i].purchaseId != rest[j].purchaseId {
          assert rest[i] == ledger[i + 1] && rest[j] == ledger[j + 1];
        }
      }
      PurchaseIdFindsAtMostOne(rest, id);
      assert ledger == [ledger[0]] + rest;
      MatchesPurchaseId(ledger[0], id);
      if MatchesArgs(ledger[0], args) {
        var tail := Selected(rest, args);
        if tail != [] {
          assert tail[0] in rest && MatchesArgs(tail[0], args);
          MatchesPurchaseId(tail[0], id);
          assert false;
        }
      }
    }
  }

  // ---------------------------------------------------------------------------
  // The service

  /** The order service with the two stores it talks to and its ledger collection. */
  class OrderService {
    var stores: Stores
    var ledger: seq<Transaction>

    ghost predicate Valid()
      reads this
    {
      WellFormed(stores.store1) && WellFormed(stores.store2) && DistinctIds(ledger)
    }

    constructor (stores: Stores)
      requires WellFormed(stores.store1) && WellFormed(stores.store2)
      ensures Valid() && this.stores == stores && ledger == []
    {
      this.stores := stores;
      ledger := [];
    }

    /** The draw must index the candidate pool whenever the resolver draws at random. */
    predicate DrawFitsRequest(req: PurchaseRequest, up: set<int>, draw: nat)
      reads this
    {
      Validate(req).Some? ==>
        var o := Validate(req).value;
        DrawFits(stores, up, o.petType, o.store, o.petName, draw)
    }

    /**
     * post_purchase. `up` is the set of stores that answer during resolution, `removalUp`
     * whether the winning store answers the DELETE, `ledgerUp` whether the ledger accepts
     * the new record, `draw` the index random.choice picks and `freshId` the uuid4 of this
     * purchase. A ledger failure comes after the removal: the pet stays removed, nothing is
     * recorded, and the answer is the handler's 500.
     */
    method PostPurchase(req: PurchaseRequest, up: set<int>, removalUp: bool, ledgerUp: bool, draw: nat, freshId: string)
      returns (out: PurchaseOutcome)
      requires Valid()
      requires UnusedId(ledger, freshId)
      requires DrawFitsRequest(req, up, draw)
      modifies this
      ensures Valid()
      ensures Validate(req).None? ==> out == Malformed && stores == old(stores) && ledger == old(ledger)
      ensures Validate(req).Some? ==>
                var o := Validate(req).value;
                var found := Resolve(old(stores), up, o.petType, o.store, o.petName, draw);
                found.None? ==> out == NotAvailable && stores == old(stores) && ledger == old(ledger)
      ensures Validate(req).Some? ==>
                var o := Validate(req).value;
                var found := Resolve(old(stores), up, o.petType, o.store, o.petName, draw);
                found.Some? ==>
                  var c := found.value;
                  var removed := DeletePetFromStore(old(stores), removalUp, c.store, c.typeId, c.pet.name);
                  && (removed.None? <==> !removalUp)
                  && (removed.None? ==> out == ServerFault && stores == old(stores) && ledger == old(ledger))
                  && (removed.Some? ==>
                        && stores == removed.value
                        && PetsUnder(stores.At(c.store), c.typeId).Some?
                        && (forall p :: p in PetsUnder(stores.At(c.store), c.typeId).value ==> p.name != c.pet.name))
                  && (removed.Some? && !ledgerUp ==> out == ServerFault && ledger == old(ledger))
                  && (removed.Some? && ledgerUp ==>
                        && out == Created(Purchase(o.purchaser, o.petType, c.store, c.pet.name, freshId))
                        && ledger == old(ledger) + [Transaction(o.purchaser, o.petType, c.store, freshId)])
    {
      var order := Validate(req);
      if order.None? {
        return Malformed;
      }
      var o := order.value;
      var found := FindAvailablePet(stores, up, o.petType, o.store, o.petName, draw);
      if found.None? {
        return NotAvailable;
      }
      var c := found.value;
      CandidateIsRemovable(stores, up, o, draw, c);
      out := Settle(o, c, removalUp, ledgerUp, freshId);
    }

    /** The second half of a purchase: the DELETE in the winning store, then the ledger record. */
    method Settle(o: Order, c: Candidate, removalUp: bool, ledgerUp: bool, freshId: string) returns (out: PurchaseOutcome)
      requires Valid()
      requires UnusedId(ledger, freshId)
      requires IsStoreId(c.store) && RemovePet(stores.At(c.store), c.typeId, c.pet.name).Some?
      modifies this
      ensures Valid()
      ensures var removed := DeletePetFromStore(old(stores), removalUp, c.store, c.typeId, c.pet.name);
              && (removed.None? <==> !removalUp)
              && (removed.None? ==> out == ServerFault && stores == old(stores) && ledger == old(ledger))
              && (removed.Some? ==>
                    && stores == removed.value
                    && PetsUnder(stores.At(c.store), c.typeId).Some?
                    && (forall p :: p in PetsUnder(stores.At(c.store), c.typeId).value ==> p.name != c.pet.name))
              && (removed.Some? && !ledgerUp ==> out == ServerFault && ledger == old(ledger))
              && (removed.Some? && ledgerUp ==>
                    && out == Created(Purchase(o.purchaser, o.petType, c.store, c.pet.name, freshId))
                    && ledger == old(ledger) + [Transaction(o.purchaser, o.petType, c.store, freshId)])
    {
      var removed := DeletePetFromStore(stores, removalUp, c.store, c.typeId, c.pet.name);
      StoresAfterRemoval(stores, removalUp, c);
      if removed.None? {
        return ServerFault;
      }
      stores := removed.value;
      if ledgerUp {
        var t := Transaction(o.purchaser, o.petType, c.store, freshId);
        assert DistinctIds(ledger + [t]) by {
          var l := ledger + [t];
          assert forall i :: 0 <= i < |ledger| ==> l[i] == ledger[i];
        }
        ledger := ledger + [t];
        out := Created(Purchase(o.purchaser, o.petType, c.store, c.pet.name, freshId));
      } else {
        out := ServerFault;
      }
    }

    /** get_transactions: the header check first, then the records matching every recognised filter. */
    method GetTransactions(header: Option<string>, args: seq<(string, string)>) returns (reply: LedgerReply)
      requires DistinctKeys(args)
      ensures header != Some(OwnerSecret) ==> reply == Unauthorized
      ensures header == Some(OwnerSecret) ==> reply == Listed(Selected(ledger, args))
      ensures reply.Listed? ==> IsSubsequence(reply.records, ledger)
      ensures reply.Listed? ==> forall t :: t in reply.records <==> t in ledger && MatchesArgs(t, args)
    {
      if header != Some(OwnerSecret) {
        return Unauthorized;
      }
      var query := BuildQuery(args);
      forall t ensures Matches(t, query) == MatchesArgs(t, args) {
        if Matches(t, query) {
          forall i | 0 <= i < |args| && IsFilterKey(args[i].0)
            ensures Field(t, args[i].0) == Some(FilterValue(args[i].0, args[i].1))
          {
            assert args[i].0 in query;
          }
        }
        if MatchesArgs(t, args) {
          forall k | k in query ensures Field(t, k) == Some(query[k]) {
            var i :| 0 <= i < |args| && args[i].0 == k;
          }
        }
      }
      FilterCongruent(ledger, (t: Transaction) => Matches(t, query), (t: Transaction) => MatchesArgs(t, args));
      reply := Listed(Filter(ledger, (t: Transaction) => Matches(t, query)));
    }
  }

  /** The DELETE of a removable candidate fails only when its store is unreachable, and leaves
      both stores well formed with the pet gone from its type. */
  lemma StoresAfterRemoval(stores: Stores, removalUp: bool, c: Candidate)
    requires WellFormed(stores.store1) && WellFormed(stores.store2)
    requires IsStoreId(c.store) && RemovePet(stores.At(c.store), c.typeId, c.pet.name).Some?
    ensures var removed := DeletePetFromStore(stores, removalUp, c.store, c.typeId, c.pet.name);
            && (removed.None? <==> !removalUp)
            && (removed.Some? ==>
                  && WellFormed(removed.value.store1) && WellFormed(removed.value.store2)
                  && PetsUnder(removed.value.At(c.store), c.typeId).Some?
                  && (forall p :: p in PetsUnder(removed.value.At(c.store), c.typeId).value ==> p.name != c.pet.name))
  {
    RemovedPetIsGone(stores.At(c.store), c.typeId, c.pet.name);
    var removed := DeletePetFromStore(stores, removalUp, c.store, c.typeId, c.pet.name);
    if removed.Some? {
      var other := 3 - c.store;
      assert removed.value.At(other) == stores.At(other);
      assert removed.value.store1 == removed.value.At(1) && removed.value.store2 == removed.value.At(2);
    }
  }

  /** The candidate the resolver returns for a validated order is in a known store and removable. */
  lemma CandidateIsRemovable(stores: Stores, up: set<int>, o: Order, draw: nat, c: Candidate)
    requires DrawFits(stores, up, o.petType, o.store, o.petName, draw)
    requires Resolve(stores, up, o.petType, o.store, o.petName, draw) == Some(c)
    ensures IsStoreId(c.store)
    ensures RemovePet(stores.At(c.store), c.typeId, c.pet.name).Some?
  {
    var pool := StoreCandidates(stores, up, 1, o.petType) + StoreCandidates(stores, up, 2, o.petType);
    if c in pool {
      if c in StoreCandidates(stores, up, 1, o.petType) {
        ResolvedPetIsRemovable(stores, up, 1, o.petType, c);
      } else {
        ResolvedPetIsRemovable(stores, up, 2, o.petType, c);
      }
    } else {
      ResolvedPetIsRemovable(stores, up, c.store, o.petType, c);
    }
  }
}
